=== FILE: README.md ===
# GkMotors2 dealership logic in Dafny

This project models the record logic of the GkMotors2 car-dealership site and proves properties of it. It covers:

- the vehicle listing page: filter options, the filter/sort pipeline, and the batch-by-batch card grid;
- the home page: the featured strip, the in-stock brand select and the brand search;
- the admin dashboard: counters, table search, the edit session and the save request;
- the comment service;
- the create/update/delete/upload handlers of the two vehicle backends.

Every piece is a pure function over immutable datatypes, except the two photo upload members: the server's handler is a method with a loop, and `VehicleApi.UploadsAgree` is a method that runs both handlers. The datastore table and the comments file are sequences.

JavaScript behaviour the code relies on is written out in the model:

- truthiness (`JsValues.Field`, `Truthy`, `Or` for `a || b`);
- `toLowerCase` and `includes`;
- `trim`;
- `String(n)`;
- the default string order of `sort()`;
- the stability of `Array.prototype.sort`;
- `[...new Set(xs)].sort()`.

The frontend sees a vehicle as `Vehicles.Vehicle`, with typed optional fields. The backends see raw JSON values (`VehicleApi.Body`/`Row`), because their checks depend on the runtime truthiness of whatever the client sent.

Sorting is a stable insertion sort by an integer key. A descending sort uses the negated key. `Sorting.StableSortUnique` shows that any two stable sorts of the same list agree, so the model's choice of algorithm does not matter. In the same way, `Sorting.StrictlySortedUnique` makes the option lists equal to the deduplicated, sorted lists of the source.

What the update and delete handlers of backend/server.js do:

- **No not-found branch on PUT or DELETE.** An unknown id succeeds and changes nothing (`VehicleApi.PutAbsent`, `VehicleApi.DeleteSpec`).
- **PUT writes every column except the main fields the body leaves out.** The update object is sent as JSON, which drops a property whose value is `undefined`. So a brand, model, year or price missing from the body keeps its stored value. Every other column is always written: absent values become their defaults or `null` (`VehicleApi.PutColumns`, `VehicleApi.PutTwice`).

Other facts about the data the model keeps:

- **The status spelling differs between the two ends.** The backends default the status to `"Disponível"`, but the frontend lists only `"disponivel"`. A vehicle saved with an empty status select is therefore stored but never listed. Both literals are kept as written.

Some facts about the code that the proofs make explicit:

- **The admin form checks untrimmed values.** A brand made only of white space passes the form's check. It is then trimmed to `""`, and backend/server.js refuses the request. The form closes anyway, because the reply status is never examined (`Admin.BlankBrandRefused`).
- **The admin empty search hides some rows.** It drops the vehicles that have none of the six searched fields (`Admin.EmptySearch`).
- **A valid comment POST destroys an unparseable comments file.** The file is replaced with a list holding only the new comment (`Comments.PostOverUnreadable`).
- **A `null` price compares as 0 on the listing page.** It lies in every price band that contains 0 and sorts as price 0 (`Vehicles.PriceOrZero`, used by `Catalog.InBand`, the `price_asc` and `price_desc` sort keys and `Admin.PriceSum`).
- **A brand link for a brand no vehicle has lists every brand.** The listing page writes the link's brand into its brand select. A value none of the options has leaves the select reading `""`, so the brand filter is off (`Home.UnstockedBrandLink`). The home page's fixed logo grid links every listed make, stocked or not.
- **An edited vehicle whose id is 0 is saved with a POST, not a PUT.** An `editingId` of 0 is falsy in the save branch (`Admin.SaveVehicle`).

## Model

| member | source | states |
|---|---|---|
| Vehicles.CardImage | js/vehicles.js:107 | The card picture is never empty. It is the first photo when that photo is usable, else the image, else `img/no-image.png`, and it is always one of those three. js/home1.js:122 uses the same rule. |
| Catalog.BrandOptions | js/vehicles.js:47 | A brand is offered exactly when it is non-empty and some loaded vehicle has it, sold ones included. The options are strictly ascending, so each appears once. |
| Catalog.YearOptions | js/vehicles.js:48 | A year is offered exactly when it is non-zero and some loaded vehicle has it. The options are strictly descending. |
| Catalog.CategoryOptions | js/vehicles.js:49 | A category is offered exactly when it is non-empty and some loaded vehicle has it. The options are strictly ascending. |
| Catalog.OptionsDependOnlyOnValues | js/vehicles.js:46-49 | Two vehicle lists with the same members give the same three option lists, whatever their order and repetition. |
| Catalog.StrLtOrder | js/vehicles.js:47 | The default string order of `sort()` is a strict total order: irreflexive, transitive and total. |
| Catalog.Filtered | js/vehicles.js:75-87 | The chain of conditional filters keeps, in loaded order, exactly the available vehicles that every non-empty control accepts. The controls combine by AND and an empty control accepts all. The price band compares a `null` price as 0. |
| Catalog.ApplyFilters | js/vehicles.js:74-92 | The listed vehicles are a permutation of the selected ones. For `price_asc`, `price_desc` and `newest` they are ordered by that mode's key; any other sort value lists the selected vehicles in loaded order. `Catalog.ApplyFiltersContents` and `Catalog.ApplyFiltersOrder` spell out the multiplicities and the tie order. |
| Catalog.ApplyFiltersContents | js/vehicles.js:74-92 | The listed vehicles are a permutation of the selected ones, each as often as it was loaded. Every listed vehicle has status `"disponivel"`. |
| Catalog.ApplyFiltersOrder | js/vehicles.js:88-90 | `price_asc` gives non-decreasing price, `price_desc` non-increasing price and `newest` non-increasing id. Each sort keeps the loaded order among ties. Any other sort value keeps the loaded order. |
| Catalog.PriceDescReversesAsc | js/vehicles.js:88-89 | When no two selected prices are equal, `price_desc` lists the vehicles in exactly the reverse of the `price_asc` order. |
| Catalog.SearchMeaning | js/vehicles.js:76-78 | An empty search keeps everything. Otherwise a vehicle passes exactly when the lower-cased text occurs in its lower-cased brand or model. |
| Catalog.YearOptionSelects | js/vehicles.js:80 | Choosing the option printed from year `y` keeps exactly the vehicles of year `y`. A vehicle without a year never matches. |
| Sorting.SortBy | js/vehicles.js:88-90 | The sorted list is ordered by the key and has the same elements, with the same multiplicities, as the input. |
| Sorting.SortByStable | js/vehicles.js:88-90 | Elements with equal keys keep their relative order. |
| Sorting.StableSortUnique | js/vehicles.js:88-90 | Two key-sorted lists that agree on the elements of every key, in order, are equal. So every stable sort gives the model's result. |
| Sorting.SortByNegatedIsReverse | js/vehicles.js:88-89 | When keys are distinct, sorting by the negated key is the reverse of sorting by the key. |
| Sorting.Distinct | js/vehicles.js:47 | The deduplicated list has exactly the members of the input. |
| Sorting.DistinctSorted | js/vehicles.js:47 | Under a strict total order, the deduplicated list is strictly sorted. |
| Sorting.StrictlySortedUnique | js/vehicles.js:47 | Two strictly sorted lists with the same members are equal. |
| Text.ToLower | js/vehicles.js:76 | Lower-casing keeps the length, maps each character on its own and leaves no upper-case letter. |
| Text.IncludesIff | js/vehicles.js:78 | `includes` holds exactly when the text occurs in the string at some index. |
| Text.IntToStringInjective | js/vehicles.js:80 | Two integers print the same exactly when they are equal. |
| Text.NatToStringRoundTrip | js/vehicles.js:80 | The decimal digits of `n` read back as `n`. |
| Text.TrimSpec | js/admin.js:205-207 | The trimmed string is the part of the input between a leading and a trailing run of white space, and it neither starts nor ends with white space. |
| Text.TrimAllSpace | js/admin.js:205 | A string of white space alone trims to `""`. |
| Pager.Render | js/vehicles.js:98-128 | A reset makes `list` current and shows its first batch. Every render keeps the grid equal to the cards of the first `displayed` vehicles and sets `displayed` to `min(displayed + 6, length)`. A non-reset render keeps the cards already shown. |
| Pager.OnScroll | js/vehicles.js:65-69 | A scroll keeps the current list and the cards already shown. It advances only when near the bottom and some vehicle is not yet shown. |
| Pager.ScrollIdle | js/vehicles.js:65-69 | Once everything is shown, or away from the bottom, a scroll changes nothing. |
| Pager.ResetForgets | js/vehicles.js:98-103 | A reset render does not depend on the previous grid. |
| Pager.ScrollsReveal | js/vehicles.js:98-128 | After a reset and `k` scrolls, exactly the first `min(6(k+1), n)` vehicles are shown, in order. |
| Pager.ScrollsShowAll | js/vehicles.js:65-69 | Enough scrolls show the whole list. |
| Home.FeaturedVehicles | js/home1.js:116-121 | At most six vehicles are shown, all available and featured. They are the first `min(6, n)` of the qualifying vehicles, in loaded order. |
| Home.FeaturedComplete | js/home1.js:116-121 | A shown vehicle is a loaded, qualifying one. When at most six qualify, every one of them is shown. |
| Home.StockBrands | js/home1.js:65-71 | A brand is offered exactly when it is non-empty and some available vehicle has it. The brands are strictly ascending. |
| Home.StockBrandsAreOptions | js/home1.js:65-71 | Every home-page brand is also a listing-page brand option. |
| Home.StockBrandNonEmpty | js/home1.js:86-92 | Searching for a brand the home page offers opens a non-empty listing. |
| Home.ApplyUrlFilters | js/vehicles.js:37-41 | A non-empty `brand` parameter that is one of the brand options selects it. One that is not clears the brand control, because the select then reads `""`. Without a non-empty parameter the controls are unchanged. |
| Home.SearchUrl | js/home1.js:86-92 | With no brand chosen the search opens the bare listing page. Otherwise the address carries the brand query, and what follows it is exactly the encoded brand. |
| Home.BrandParam | js/vehicles.js:38-39 | A brand is read exactly when the address carries the brand query, and it is the decoded rest of the address. The bare listing page carries none. |
| Home.SearchRoundTrip | js/home1.js:86-92 | When decoding undoes encoding, the listing page opens untouched when no brand was chosen. Otherwise it opens with exactly the chosen brand when the listing offers it, and with the brand control cleared when it does not. |
| Home.HomeSearchLands | js/home1.js:86-92 | A brand chosen in the home page's select is always selected on the listing page. |
| Home.UnstockedBrandLink | js/home1.js:44 | A brand link for a brand no loaded vehicle has opens the listing with the brand control cleared. |
| Admin.UpdateStats | js/admin.js:101-111 | The total is the list length. The available count is the number of vehicles whose status is `"disponivel"`, and the sold count the number whose status is `"vendido"`; together they never exceed the total. The total value is the sum of the prices of exactly the available vehicles, a `null` price counting 0. |
| Admin.StatsSpec | js/admin.js:101-108 | The total is the list length. Available counts the `"disponivel"` vehicles and sold the `"vendido"` ones, and available + sold never exceeds the total. The total value is the price sum of exactly the available vehicles, a missing price counting 0. It is not negative when no price is. |
| Admin.FilterVehicles | js/admin.js:116-129 | The shown rows keep table order. A vehicle is shown exactly when it is loaded and the lower-cased query is included in its lower-cased brand, model, category, fuel or transmission, or in its year's digits; an absent field never matches. |
| Admin.FilterVehiclesSpec | js/admin.js:116-128 | The search keeps table order. A vehicle is shown exactly when the lower-cased query occurs in one of its present fields: brand, model, year digits, category, fuel or transmission. |
| Admin.EmptySearch | js/admin.js:119-126 | An empty query keeps exactly the vehicles with at least one searched field present. |
| Admin.CloseForm | js/admin.js:139-141 | After closing the form no vehicle is being edited and no photo is pending, whatever the session was. |
| Admin.AddPhotos | js/admin.js:157-167 | New photos are appended after the pending ones, in order. The edited id is unchanged. |
| Admin.RemovePhoto | js/admin.js:182-184 | Removing index `i` drops exactly that photo and keeps the others in order. An index past the end changes nothing. |
| Admin.RemoveUndoesAdd | js/admin.js:182-184 | Removing the photo just added restores the session. |
| Admin.RemovePhotoMultiset | js/admin.js:182-184 | Removal keeps every other photo, each as often as before. |
| Admin.FindById | js/admin.js:254 | Finds the first index with the given id, or none exactly when no vehicle has it. |
| Admin.EditVehicle | js/admin.js:253-258 | An unknown id changes nothing. Otherwise the first vehicle with that id is edited, and its photos, or none, are pending. |
| Admin.BuildBody | js/admin.js:204-220 | Brand, model and year are sent trimmed and the price through `Number`. Power is `null` when its input is empty and otherwise its `Number`. Category, fuel, transmission, color, description and status are sent as typed and featured as the checkbox state. The pending photos are sent as the photo list. |
| Admin.SaveVehicle | js/admin.js:193-243 | An empty brand, model, year or price, or no pending photo, gives an alert and no change. The alert asks for the fields when one is empty, and for a photo otherwise. Otherwise one request is sent and the form closes: a PUT to `api/<id>` exactly when a truthy id is being edited, else a POST. The body's first photo is the first pending photo. |
| Admin.SavedPostStored | backend/server.js:85-99 | A form whose trimmed brand, model and year are non-empty and whose price is non-zero is accepted by the server. The stored image is the first pending photo. |
| Admin.BlankBrandRefused | js/admin.js:194-242 | A new vehicle whose brand is made only of white space passes the form, is refused by the server, and the form still closes. |
| Comments.ReadComments | back/server1.js:19-27 | A missing or unparseable file reads as no comments. |
| Comments.PostComment | back/server1.js:40-58 | A falsy `nome` or `comentario` gives 400 `Dados inválidos` and leaves the file as it was. Otherwise exactly one comment is appended after the readable ones, with the given fields, clock id and date. |
| Comments.DeleteComment | back/server1.js:60-65 | Always succeeds, and no remaining comment has the deleted id. |
| Comments.DeleteSpec | back/server1.js:60-65 | Delete keeps exactly the comments with another id, in order. It is idempotent. An absent or NaN id leaves the list as it was. |
| Comments.DeleteUndoesPost | back/server1.js:47-63 | Deleting a just-posted comment by its id restores the list, when the id was fresh. |
| Comments.PostOverUnreadable | back/server1.js:19-56 | A valid POST over an unparseable file leaves only the new comment. |
| JsValues.OrDefault | backend/server.js:90-97 | `x \|\| d` with a truthy default is truthy. It is `x` exactly when `x` is truthy. |
| VehicleApi.Normalise | backend/server.js:88-100 | Brand, model, year and price are stored as given, and the image and photos as chosen by the caller. Power, category, fuel, transmission, color and description are stored when truthy and as `null` otherwise. Status is stored when truthy and as `"Disponível"` otherwise, featured when truthy and as `false` otherwise. |
| VehicleApi.NormaliseSpec | backend/server.js:90-97 | Stored optional columns are `null` or truthy, status is truthy and featured is truthy or `false`. A truthy power, category, fuel, transmission, color, description, status or featured value is kept; a falsy status or featured value gives the default. Re-sending a stored row stores the same columns. |
| VehicleApi.NewRow | backend/server.js:87-99 | The inserted row's image is the first photo, and the full photo list is stored. The main fields are stored as given, and every other column follows the `\|\| null`, status and featured defaults. |
| VehicleApi.ServerPost | backend/server.js:78-107 | Refused with 400, table untouched, exactly when brand, model, year or price is falsy or the photo list is missing or empty. Otherwise exactly one row is appended and the other rows are unchanged. |
| VehicleApi.RoutesPost | backend/routes.js:48-81 | Refused with 400, table untouched, exactly when the photo list is missing or empty. Otherwise exactly one row is appended. |
| VehicleApi.RoutesLooser | backend/routes.js:55-56 | Everything the server accepts the router accepts, with the same row. A body without a brand is refused by the server and accepted by the router. |
| VehicleApi.PutImage | backend/server.js:129 | The updated image is the first photo when that photo is truthy, and `null` otherwise. |
| VehicleApi.PutColumns | backend/server.js:119-131 | Brand, model, year and price keep their stored value when the body leaves them out, and take the body's value otherwise. Every other column is the body's value when truthy, and otherwise `null`, the default status or `false`; so the updated columns are in normal form. Absent photos give `null` photos and image. |
| VehicleApi.PutOnlyKeepsMain | backend/server.js:119-131 | Apart from brand, model, year and price, the stored columns do not depend on the old row. A body with all four replaces the row outright. |
| VehicleApi.ServerPut | backend/server.js:109-139 | Every row with the id is updated with the request's columns, and every other row is unchanged. It always succeeds. |
| VehicleApi.PutTwice | backend/server.js:117-132 | Two updates of the same id equal one update whose body is the later one, with the earlier one's main fields filling in those the later one leaves out. |
| VehicleApi.PutLastWins | backend/server.js:117-132 | A second update of the same id that gives all four main fields erases the first. |
| VehicleApi.PutAbsent | backend/server.js:117-135 | Updating an id no row has leaves the table unchanged. |
| VehicleApi.ServerDelete | backend/server.js:141-155 | Replies with the success message, and no remaining row has the id. |
| VehicleApi.DeleteSpec | backend/server.js:145-151 | Delete keeps exactly the rows with another id, in order. It is idempotent. An absent id leaves the table unchanged. |
| VehicleApi.ServerUpload | backend/server.js:28-59 | An empty upload is refused. It succeeds exactly when every file is an image, and then all files are stored and their addresses returned in order. Otherwise it stops at the first non-image with 400, having stored exactly the files before it. |
| VehicleApi.RoutesUpload | backend/routes.js:13-43 | Refused exactly when no file is sent. Otherwise every file is stored and its address returned in order. |
| VehicleApi.UploadsAgree | backend/routes.js:21-37 | When the server stores an upload, the router gives the same reply. The router accepts every non-empty upload, and the server refuses exactly the empty ones and those containing a non-image. |

## Left out

- Markup, DOM events, the modal, and scroll geometry. "Near the bottom" is a boolean input to `Pager.OnScroll`. The counter text and the card markup beyond picture and link are not modelled.
- Network, fetch, the datastore client, multer, express routing and CORS. The table and the comments file are in-memory values. Datastore and network failures, which give a 500 or an alert, are not modelled.
- Response bodies after datastore calls: the inserted or updated row, and `uploadedUrls` beyond the list of addresses.
- `Date.now()`, `new Date().toLocaleString`, the storage file names and public addresses. These are parameters (`now`, `stamp`, `newId`, `publicUrl`).
- `Number()` coercion and floating point. Prices, years and ids are integers. The admin form's `Number` is a caller-supplied function, and NaN for a comment path id is `None`.
- Missing properties in vehicle records. The listing reads whole rows, so a value is never `undefined`, only `null`, which `Vehicles.Vehicle` holds as `None`. A missing property, for which the price comparisons and the sort comparator would give NaN, is not represented.
- Catalog.PriceBand: the parsing of the price select's text (`split("-").map(Number)`) is abstracted into a datatype holding the parsed bounds.
- Text.ToLower: only Basic Latin and Latin-1 upper-case letters are mapped. Other scripts and special casings (e.g. `İ`) are left alone.
- Text.StrLt: compares code points. This differs from UTF-16 code units only for characters outside the Basic Multilingual Plane.
- `encodeURIComponent` and the URL decoding are opaque functions (`Home.SearchRoundTrip` assumes only that decoding undoes encoding).
- The fixed brand list `loadBrands` (js/home1.js:32-53). Its select options are overwritten by `loadBrandsFromStock`. Its logo grid is markup, except that its links have the shape `Home.UnstockedBrandLink` follows.
- `editVehicle`'s copying of the vehicle's fields into the form inputs, and the `_id || id` fallback. Rows carry only `id`.
- FileReader's asynchronous completion order. `Admin.AddPhotos` appends in file order.
- GET ordering by `created_at`, authentication (js/auth.js, js/guard.js), js/sell.js and js/comments.js.
- The `rating` and `image` fields the admin form sends. Neither backend reads them, so `Admin.BuildBody` does not carry them.
- VehicleApi.Body: a `photos` value that is a truthy non-array, for example a string, is not represented. Missing and `null` photos are both `None`.

=== FILE: admin.dfy ===
/** The admin dashboard (js/admin.js): the counters, the table search, the
    edit session behind the vehicle form (`editingId`, `currentPhotos`) and
    the request `saveVehicle` sends.
 */
module Admin {
  import opened JsValues
  import opened Text
  import opened Seqs
  import opened Vehicles
  import VehicleApi

  // ---------------------------------------------------------------------
  // Counters
  // ---------------------------------------------------------------------

  predicate IsSold(v: Vehicle) {
    v.status == Sold
  }

  /** The four dashboard counters. */
  datatype Stats = Stats(total: nat, available: nat, sold: nat, totalValue: int)

  /** The `reduce` of `updateStats`: walks the list left to right adding the
      price of each available vehicle to the running sum. */
  function ValueFold(vs: seq<Vehicle>, sum: int): int
    decreases |vs|
  {
    if |vs| == 0 then sum
    else ValueFold(vs[1..], if IsAvailable(vs[0]) then sum + PriceOrZero(vs[0]) else sum)
  }

  /** `updateStats`: the list length, the number of available and of sold
      vehicles, and the value of the stock. */
  function UpdateStats(vs: seq<Vehicle>): (r: Stats)
    ensures r.total == |vs|
    ensures r.available == |Filter(vs, IsAvailable)| && r.sold == |Filter(vs, IsSold)|
    ensures r.available + r.sold <= r.total
    ensures r.totalValue == PriceSum(Filter(vs, IsAvailable))
  {
    assert Available != Sold by {
      assert Available[0] != Sold[0];
    }
    DisjointFilters(vs, IsAvailable, IsSold);
    ValueFoldSum(vs, 0);
    Stats(|vs|, |Filter(vs, IsAvailable)|, |Filter(vs, IsSold)|, ValueFold(vs, 0))
  }

  /** The sum of the prices of a list, a missing price counting 0. */
  function PriceSum(vs: seq<Vehicle>): int {
    if |vs| == 0 then 0 else PriceOrZero(vs[0]) + PriceSum(vs[1..])
  }

  lemma {:induction false} ValueFoldSum(vs: seq<Vehicle>, sum: int)
    ensures ValueFold(vs, sum) == sum + PriceSum(Filter(vs, IsAvailable))
  {
    if |vs| > 0 {
      ValueFoldSum(vs[1..], if IsAvailable(vs[0]) then sum + PriceOrZero(vs[0]) else sum);
      var rest := Filter(vs[1..], IsAvailable);
      if IsAvailable(vs[0]) {
        assert Filter(vs, IsAvailable) == [vs[0]] + rest;
        assert ([vs[0]] + rest)[1..] == rest;
      } else {
        assert Filter(vs, IsAvailable) == rest;
      }
    }
  }

  /** Two filters by predicates no element satisfies together keep at most
      as many elements as there are. */
  lemma {:induction false} DisjointFilters(s: seq<Vehicle>, p: Vehicle -> bool, q: Vehicle -> bool)
    requires forall i :: 0 <= i < |s| ==> !(p(s[i]) && q(s[i]))
    ensures |Filter(s, p)| + |Filter(s, q)| <= |s|
  {
    if |s| > 0 {
      DisjointFilters(s[1..], p, q);
    }
  }

  /** The counters agree with each other: available and sold are counted
      over the same list, so together they never exceed the total; the
      total value is the price sum of exactly the available vehicles, and
      it is not negative when no price is. */
  lemma {:induction false} StatsSpec(vs: seq<Vehicle>)
    ensures UpdateStats(vs).total == |vs|
    ensures UpdateStats(vs).available == |Filter(vs, IsAvailable)| && UpdateStats(vs).sold == |Filter(vs, IsSold)|
    ensures UpdateStats(vs).available + UpdateStats(vs).sold <= UpdateStats(vs).total
    ensures UpdateStats(vs).totalValue == PriceSum(Filter(vs, IsAvailable))
    ensures (forall i :: 0 <= i < |vs| ==> PriceOrZero(vs[i]) >= 0) ==> UpdateStats(vs).totalValue >= 0
  {
    if forall i :: 0 <= i < |vs| ==> PriceOrZero(vs[i]) >= 0 {
      var stock := Filter(vs, IsAvailable);
      forall i | 0 <= i < |stock|
        ensures PriceOrZero(stock[i]) >= 0
      {
        FilterMultiset(vs, IsAvailable, stock[i]);
      }
      NonNegativeSum(stock);
    }
  }

  lemma {:induction false} NonNegativeSum(s: seq<Vehicle>)
    requires forall i :: 0 <= i < |s| ==> PriceOrZero(s[i]) >= 0
    ensures PriceSum(s) >= 0
  {
    if |s| > 0 {
      NonNegativeSum(s[1..]);
    }
  }

  // ---------------------------------------------------------------------
  // Table search
  // ---------------------------------------------------------------------

  /** An optional text column contains the search text once lower-cased;
      a missing column never does. */
  predicate TextHas(f: Option<string>, search: string) {
    f.Some? && Includes(ToLower(f.value), search)
  }

  /** The test of `filterVehicles`: the query occurs in the lower-cased
      brand, model, category, fuel or transmission, or in the year's
      digits; an absent field never matches. */
  predicate AdminMatch(search: string, v: Vehicle) {
    || TextHas(v.brand, search)
    || TextHas(v.model, search)
    || (v.year.Some? && Includes(IntToString(v.year.value), search))
    || TextHas(v.category, search)
    || TextHas(v.fuel, search)
    || TextHas(v.transmission, search)
  }

  function AdminTest(search: string): Vehicle -> bool {
    v => AdminMatch(search, v)
  }

  /** `filterVehicles(text)`: the rows the table shows. */
  function FilterVehicles(vs: seq<Vehicle>, text: string): (r: seq<Vehicle>)
    ensures IsSubseq(r, vs)
    ensures forall v :: v in r <==> v in vs && AdminMatch(ToLower(text), v)
  {
    FilterIsSubseq(vs, AdminTest(ToLower(text)));
    assert forall v :: v in Filter(vs, AdminTest(ToLower(text))) <==> v in vs && AdminMatch(ToLower(text), v) by {
      forall v
        ensures v in Filter(vs, AdminTest(ToLower(text))) <==> v in vs && AdminMatch(ToLower(text), v)
      {
        FilterMultiset(vs, AdminTest(ToLower(text)), v);
      }
    }
    Filter(vs, AdminTest(ToLower(text)))
  }

  /** At least one of the searched fields is present. */
  predicate HasSearchableField(v: Vehicle) {
    v.brand.Some? || v.model.Some? || v.year.Some? || v.category.Some? || v.fuel.Some? || v.transmission.Some?
  }

  /** The search keeps the table's order and shows a vehicle exactly when
      the lower-cased query occurs in one of its present searched fields. */
  lemma {:induction false} FilterVehiclesSpec(vs: seq<Vehicle>, text: string, v: Vehicle)
    ensures IsSubseq(FilterVehicles(vs, text), vs)
    ensures var q := ToLower(text);
      v in FilterVehicles(vs, text) <==>
        v in vs && (
        || (v.brand.Some? && OccursIn(q, ToLower(v.brand.value)))
        || (v.model.Some? && OccursIn(q, ToLower(v.model.value)))
        || (v.year.Some? && OccursIn(q, IntToString(v.year.value)))
        || (v.category.Some? && OccursIn(q, ToLower(v.category.value)))
        || (v.fuel.Some? && OccursIn(q, ToLower(v.fuel.value)))
        || (v.transmission.Some? && OccursIn(q, ToLower(v.transmission.value))))
  {
    var q := ToLower(text);
    FilterIsSubseq(vs, AdminTest(q));
    FilterMultiset(vs, AdminTest(q), v);
    if v.brand.Some? { IncludesIff(ToLower(v.brand.value), q); }
    if v.model.Some? { IncludesIff(ToLower(v.model.value), q); }
    if v.year.Some? { IncludesIff(IntToString(v.year.value), q); }
    if v.category.Some? { IncludesIff(ToLower(v.category.value), q); }
    if v.fuel.Some? { IncludesIff(ToLower(v.fuel.value), q); }
    if v.transmission.Some? { IncludesIff(ToLower(v.transmission.value), q); }
  }

  /** An empty query does not show every row: it hides the vehicles that
      have none of the searched fields. */
  lemma {:induction false} EmptySearch(vs: seq<Vehicle>)
    ensures FilterVehicles(vs, "") == Filter(vs, HasSearchableField)
  {
    forall i | 0 <= i < |vs|
      ensures AdminTest("")(vs[i]) == HasSearchableField(vs[i])
    {
      var v := vs[i];
      if v.brand.Some? { IncludesEmpty(ToLower(v.brand.value)); }
      if v.model.Some? { IncludesEmpty(ToLower(v.model.value)); }
      if v.year.Some? { IncludesEmpty(IntToString(v.year.value)); }
      if v.category.Some? { IncludesEmpty(ToLower(v.category.value)); }
      if v.fuel.Some? { IncludesEmpty(ToLower(v.fuel.value)); }
      if v.transmission.Some? { IncludesEmpty(ToLower(v.transmission.value)); }
    }
    assert ToLower("") == "";
    FilterCongruent(vs, AdminTest(""), HasSearchableField);
  }

  // ---------------------------------------------------------------------
  // Edit session
  // ---------------------------------------------------------------------

  /** `editingId` (`None` for `null`) and `currentPhotos`. */
  datatype Session = Session(editingId: Option<int>, photos: seq<string>)

  /** `closeForm`: whatever was being edited, afterwards no vehicle is and
      no photo is pending. */
  function CloseForm(s: Session): (r: Session)
    ensures r.editingId.None? && r.photos == []
  {
    Session(None, [])
  }

  /** The photos read from the file input are appended in order. */
  function AddPhotos(s: Session, urls: seq<string>): (r: Session)
    ensures r.editingId == s.editingId
    ensures |r.photos| == |s.photos| + |urls|
    ensures r.photos[..|s.photos|] == s.photos && r.photos[|s.photos|..] == urls
  {
    s.(photos := s.photos + urls)
  }

  /** Clicking preview `index` runs `currentPhotos.splice(index, 1)`: that
      photo goes and the others close up in order. An index past the end
      removes nothing. */
  function RemovePhoto(s: Session, index: nat): (r: Session)
    ensures r.editingId == s.editingId
    ensures index < |s.photos| ==>
      && |r.photos| == |s.photos| - 1
      && r.photos[..index] == s.photos[..index]
      && r.photos[index..] == s.photos[index + 1..]
    ensures index >= |s.photos| ==> r == s
  {
    if index < |s.photos| then s.(photos := s.photos[..index] + s.photos[index + 1..]) else s
  }

  /** Removing the photo just added restores the session. */
  lemma RemoveUndoesAdd(s: Session, url: string)
    ensures RemovePhoto(AddPhotos(s, [url]), |s.photos|) == s
  {
    assert (s.photos + [url])[..|s.photos|] == s.photos;
  }

  /** Removing a photo keeps every other photo, each exactly as often as
      before. */
  lemma RemovePhotoMultiset(s: Session, index: nat)
    requires index < |s.photos|
    ensures multiset(RemovePhoto(s, index).photos) + multiset{s.photos[index]} == multiset(s.photos)
  {
    assert s.photos == s.photos[..index] + [s.photos[index]] + s.photos[index + 1..];
  }

  /** Position of the first vehicle with id `id`, as `find` searches. */
  function FindById(vs: seq<Vehicle>, id: int): (r: Option<nat>)
    ensures r.None? <==> forall i :: 0 <= i < |vs| ==> vs[i].id != id
    ensures r.Some? ==>
      r.value < |vs| && vs[r.value].id == id && forall i :: 0 <= i < r.value ==> vs[i].id != id
  {
    if |vs| == 0 then None
    else if vs[0].id == id then Some(0)
    else match FindById(vs[1..], id)
      case None => None
      case Some(k) => Some(k + 1)
  }

  /** `editVehicle(id)`: an unknown id changes nothing; otherwise the first
      vehicle with that id is being edited and the pending photos are a
      copy of its photos, or none when it has none. */
  function EditVehicle(s: Session, vs: seq<Vehicle>, id: int): (r: Session)
    ensures (forall i :: 0 <= i < |vs| ==> vs[i].id != id) ==> r == s
    ensures (exists i :: 0 <= i < |vs| && vs[i].id == id) ==>
      exists i :: 0 <= i < |vs| && vs[i].id == id && (forall j :: 0 <= j < i ==> vs[j].id != id)
        && r == Session(Some(id), vs[i].photos.GetOr([]))
  {
    match FindById(vs, id)
    case None => s
    case Some(i) => Session(Some(id), vs[i].photos.GetOr([]))
  }

  // ---------------------------------------------------------------------
  // Saving
  // ---------------------------------------------------------------------

  const FillFields: string := "Preencha marca, modelo, ano e preço"
  const AddPhoto: string := "Adicione pelo menos uma foto"

  /** The form's input values (text) and the featured checkbox. */
  datatype Form = Form(
    brand: string, model: string, year: string, price: string,
    power: string, category: string, rating: string,
    fuel: string, transmission: string, color: string, description: string,
    status: string, featured: bool)

  datatype Verb = Post | Put

  /** What `saveVehicle` does: an alert, or one request. */
  datatype Outcome =
    | Alert(message: string)
    | Send(verb: Verb, url: string, body: VehicleApi.Body)

  /** An optional numeric input: `null` when left empty, else its text
      converted by `num`, which stands for `Number`. */
  function OptionalNumber(text: string, num: string -> int): Field {
    if text == "" then Null else Num(num(text))
  }

  /** The JSON body `saveVehicle` builds: brand, model and year trimmed,
      price through `Number`, the pending photos as the photo list (the
      form's rating and image are sent too but no backend reads them). */
  function BuildBody(f: Form, photos: seq<string>, num: string -> int): (b: VehicleApi.Body)
    ensures b.brand == Str(Trim(f.brand)) && b.model == Str(Trim(f.model)) && b.year == Str(Trim(f.year))
    ensures b.price == Num(num(f.price))
    ensures f.power == "" ==> b.power == Null
    ensures f.power != "" ==> b.power == Num(num(f.power))
    ensures b.category == Str(f.category) && b.fuel == Str(f.fuel) && b.transmission == Str(f.transmission)
    ensures b.color == Str(f.color) && b.description == Str(f.description)
    ensures b.status == Str(f.status) && b.featured == Bool(f.featured)
    ensures b.photos == Some(seq(|photos|, i requires 0 <= i < |photos| => Str(photos[i])))
  {
    VehicleApi.Body(
      Str(Trim(f.brand)), Str(Trim(f.model)), Str(Trim(f.year)), Num(num(f.price)),
      OptionalNumber(f.power, num), Str(f.category), Str(f.fuel), Str(f.transmission),
      Str(f.color), Str(f.description), Str(f.status), Bool(f.featured),
      Some(seq(|photos|, i requires 0 <= i < |photos| => Str(photos[i]))))
  }

  /** `saveVehicle`, with `api` the vehicles address. An empty brand, model,
      year or price, or no pending photo, gives an alert and changes
      nothing; otherwise a PUT to `api/<id>` when a vehicle with a truthy id
      is being edited, else a POST to `api`, after which the form is
      closed (the reply's status is not examined). */
  function SaveVehicle(s: Session, f: Form, api: string, num: string -> int): (r: (Outcome, Session))
    ensures r.0.Alert? <==> f.brand == "" || f.model == "" || f.year == "" || f.price == "" || s.photos == []
    ensures r.0.Alert? ==> r.1 == s
    ensures r.0.Alert? && (f.brand == "" || f.model == "" || f.year == "" || f.price == "") ==> r.0.message == FillFields
    ensures r.0.Alert? && f.brand != "" && f.model != "" && f.year != "" && f.price != "" ==> r.0.message == AddPhoto
    ensures r.0.Send? ==> r.1 == CloseForm(s) && r.0.body == BuildBody(f, s.photos, num)
    ensures r.0.Send? ==> r.0.body.photos.Some? && r.0.body.photos.value[0] == Str(s.photos[0])
    ensures r.0.Send? ==> (r.0.verb == Put <==> s.editingId.Some? && s.editingId.value != 0)
    ensures r.0.Send? && r.0.verb == Put ==> r.0.url == api + "/" + IntToString(s.editingId.value)
    ensures r.0.Send? && r.0.verb == Post ==> r.0.url == api
  {
    if f.brand == "" || f.model == "" || f.year == "" || f.price == "" then (Alert(FillFields), s)
    else if s.photos == [] then (Alert(AddPhoto), s)
    else
      var body := BuildBody(f, s.photos, num);
      if s.editingId.Some? && s.editingId.value != 0 then
        (Send(Put, api + "/" + IntToString(s.editingId.value), body), CloseForm(s))
      else
        (Send(Post, api, body), CloseForm(s))
  }

  /** A new vehicle the form sends is stored by backend/server.js when the
      trimmed brand, model and year are non-empty and the price is not 0;
      the stored cover image is the first pending photo. */
  lemma SavedPostStored(s: Session, f: Form, api: string, num: string -> int, table: seq<VehicleApi.Row>, newId: int)
    requires SaveVehicle(s, f, api, num).0.Send?
    requires Trim(f.brand) != "" && Trim(f.model) != "" && Trim(f.year) != "" && num(f.price) != 0
    ensures var body := SaveVehicle(s, f, api, num).0.body;
      && VehicleApi.ServerPost(table, body, newId).0 == VehicleApi.Created
      && VehicleApi.ServerPost(table, body, newId).1[|table|].cols.image == Str(s.photos[0])
  {
    var body := BuildBody(f, s.photos, num);
    assert SaveVehicle(s, f, api, num).0.body == body;
    assert VehicleApi.ServerAccepts(body);
  }

  /** The form's check is weaker than the server's: a brand made only of
      white space passes it, is trimmed to `""` and the server refuses the
      new vehicle, while the form is closed all the same. */
  lemma BlankBrandRefused(s: Session, f: Form, api: string, num: string -> int, table: seq<VehicleApi.Row>, newId: int)
    requires s.photos != [] && (s.editingId.None? || s.editingId.value == 0)
    requires f.brand != "" && forall k :: 0 <= k < |f.brand| ==> IsJsSpace(f.brand[k])
    requires f.model != "" && f.year != "" && f.price != ""
    ensures SaveVehicle(s, f, api, num).0.Send?
    ensures SaveVehicle(s, f, api, num).1 == CloseForm(s)
    ensures VehicleApi.ServerPost(table, SaveVehicle(s, f, api, num).0.body, newId).0.BadRequest?
  {
    TrimAllSpace(f.brand);
  }
}

=== FILE: catalog.dfy ===
/** The vehicle listing page (js/vehicles.js): the filter options derived
    from the loaded vehicles (`populateFilters`) and the filter/sort pipeline
    (`applyFilters`). The incremental renderer is in module `Pager`.
 */
module Catalog {
  import opened JsValues
  import opened Text
  import opened Seqs
  import opened Sorting
  import opened Vehicles

  // ---------------------------------------------------------------------
  // Filter options
  // ---------------------------------------------------------------------

  /** The values of an optional column that survive the truthiness filter:
      present and different from the column's falsy value, in order. */
  function Present<A(==,!new)>(xs: seq<Option<A>>, falsy: A): (r: seq<A>)
    ensures forall a :: a in r <==> a != falsy && Some(a) in xs
  {
    if |xs| == 0 then []
    else
      assert xs == [xs[0]] + xs[1..];
      (if xs[0].Some? && xs[0].value != falsy then [xs[0].value] else []) + Present(xs[1..], falsy)
  }

  /** `StrLt`, the default string order, is a strict total order. */
  lemma StrLtOrder()
    ensures StrictTotalOrder(StrLt)
  {
    forall a: string
      ensures !StrLt(a, a)
    {
      StrLtIrreflexive(a);
    }
    forall a: string, b: string, c: string | StrLt(a, b) && StrLt(b, c)
      ensures StrLt(a, c)
    {
      StrLtTransitive(a, b, c);
    }
    forall a: string, b: string | a != b
      ensures StrLt(a, b) || StrLt(b, a)
    {
      StrLtTotal(a, b);
    }
  }

  /** The descending numeric comparator as a "comes before" test. */
  predicate Above(a: int, b: int) {
    a > b
  }

  /** The options of a text column's select: the
      distinct non-empty values in ascending string order. */
  function TextOptions(xs: seq<Option<string>>): (r: seq<string>)
    ensures forall t :: t in r <==> t != "" && Some(t) in xs
    ensures StrictlySorted(r, StrLt)
  {
    StrLtOrder();
    DistinctSorted(Present(xs, ""), StrLt);
    Distinct(Present(xs, ""), StrLt)
  }

  /** Brand options: every non-empty brand of a loaded vehicle (sold ones
      included), once each, ascending. */
  function BrandOptions(vs: seq<Vehicle>): (r: seq<string>)
    ensures forall b :: b in r <==> b != "" && exists i :: 0 <= i < |vs| && vs[i].brand == Some(b)
    ensures StrictlySorted(r, StrLt)
  {
    var column := seq(|vs|, i requires 0 <= i < |vs| => vs[i].brand);
    assert forall b :: Some(b) in column <==> exists i :: 0 <= i < |vs| && vs[i].brand == Some(b) by {
      forall b | Some(b) in column
        ensures exists i :: 0 <= i < |vs| && vs[i].brand == Some(b)
      {
        var i :| 0 <= i < |column| && column[i] == Some(b);
        assert vs[i].brand == Some(b);
      }
      forall b, i | 0 <= i < |vs| && vs[i].brand == Some(b)
        ensures Some(b) in column
      {
        assert column[i] == Some(b);
      }
    }
    TextOptions(column)
  }

  /** Category options: every non-empty category, once each, ascending. */
  function CategoryOptions(vs: seq<Vehicle>): (r: seq<string>)
    ensures forall t :: t in r <==> t != "" && exists i :: 0 <= i < |vs| && vs[i].category == Some(t)
    ensures StrictlySorted(r, StrLt)
  {
    var column := seq(|vs|, i requires 0 <= i < |vs| => vs[i].category);
    assert forall t :: Some(t) in column <==> exists i :: 0 <= i < |vs| && vs[i].category == Some(t) by {
      forall t | Some(t) in column
        ensures exists i :: 0 <= i < |vs| && vs[i].category == Some(t)
      {
        var i :| 0 <= i < |column| && column[i] == Some(t);
        assert vs[i].category == Some(t);
      }
      forall t, i | 0 <= i < |vs| && vs[i].category == Some(t)
        ensures Some(t) in column
      {
        assert column[i] == Some(t);
      }
    }
    TextOptions(column)
  }

  /** Year options: every non-zero year, once each, newest first. */
  function YearOptions(vs: seq<Vehicle>): (r: seq<int>)
    ensures forall y :: y in r <==> y != 0 && exists i :: 0 <= i < |vs| && vs[i].year == Some(y)
    ensures forall i, j :: 0 <= i < j < |r| ==> r[i] > r[j]
  {
    var column := seq(|vs|, i requires 0 <= i < |vs| => vs[i].year);
    assert forall y :: Some(y) in column <==> exists i :: 0 <= i < |vs| && vs[i].year == Some(y) by {
      forall y | Some(y) in column
        ensures exists i :: 0 <= i < |vs| && vs[i].year == Some(y)
      {
        var i :| 0 <= i < |column| && column[i] == Some(y);
        assert vs[i].year == Some(y);
      }
      forall y, i | 0 <= i < |vs| && vs[i].year == Some(y)
        ensures Some(y) in column
      {
        assert column[i] == Some(y);
      }
    }
    DistinctSorted(Present(column, 0), Above);
    Distinct(Present(column, 0), Above)
  }

  /** The three option lists `populateFilters` writes into the selects. */
  datatype Options = Options(brands: seq<string>, years: seq<int>, categories: seq<string>)

  function PopulateFilters(vs: seq<Vehicle>): Options {
    Options(BrandOptions(vs), YearOptions(vs), CategoryOptions(vs))
  }

  /** The option lists do not depend on how the loaded vehicles are ordered
      or repeated: any list with the same brands gives the same brand
      options, and likewise for years and categories. */
  lemma {:induction false} OptionsDependOnlyOnValues(vs: seq<Vehicle>, ws: seq<Vehicle>)
    requires forall v :: v in vs <==> v in ws
    ensures PopulateFilters(vs) == PopulateFilters(ws)
  {
    StrLtOrder();
    var a, b := BrandOptions(vs), BrandOptions(ws);
    forall t
      ensures t in a <==> t in b
    {
      if t in a {
        var i :| 0 <= i < |vs| && vs[i].brand == Some(t);
        assert vs[i] in ws;
      }
      if t in b {
        var i :| 0 <= i < |ws| && ws[i].brand == Some(t);
        assert ws[i] in vs;
      }
    }
    StrictlySortedUnique(a, b, StrLt);
    var c, d := CategoryOptions(vs), CategoryOptions(ws);
    forall t
      ensures t in c <==> t in d
    {
      if t in c {
        var i :| 0 <= i < |vs| && vs[i].category == Some(t);
        assert vs[i] in ws;
      }
      if t in d {
        var i :| 0 <= i < |ws| && ws[i].category == Some(t);
        assert ws[i] in vs;
      }
    }
    StrictlySortedUnique(c, d, StrLt);
    var e, f := YearOptions(vs), YearOptions(ws);
    forall y
      ensures y in e <==> y in f
    {
      if y in e {
        var i :| 0 <= i < |vs| && vs[i].year == Some(y);
        assert vs[i] in ws;
      }
      if y in f {
        var i :| 0 <= i < |ws| && ws[i].year == Some(y);
        assert ws[i] in vs;
      }
    }
    StrictlySortedUnique(e, f, Above);
  }

  // ---------------------------------------------------------------------
  // Filter criteria
  // ---------------------------------------------------------------------

  /** The price select's value once split: empty, `"min-max"` or a bare
      threshold. */
  datatype PriceBand = AnyPrice | Between(min: int, max: int) | AtLeast(threshold: int)

  /** The state of the page's controls: the search box, the three selects
      (the year select holds the year's text), the price band and the sort
      select. */
  datatype Criteria = Criteria(
    search: string,
    brand: string,
    year: string,
    category: string,
    price: PriceBand,
    sort: string)

  /** The search test: the search text occurs in the lower-cased brand or
      in the lower-cased model; a vehicle without either never matches. */
  predicate TextMatch(search: string, v: Vehicle) {
    || (v.brand.Some? && Includes(ToLower(v.brand.value), search))
    || (v.model.Some? && Includes(ToLower(v.model.value), search))
  }

  /** The year as `String` prints it: a `null` year prints as `"null"`. */
  function YearText(v: Vehicle): string {
    match v.year
    case None => "null"
    case Some(y) => IntToString(y)
  }

  /** The price test, on the price as compared: so a vehicle with a `null`
      price lies in every band that contains 0. */
  predicate InBand(band: PriceBand, v: Vehicle) {
    match band
    case AnyPrice => true
    case Between(lo, hi) => lo <= PriceOrZero(v) <= hi
    case AtLeast(t) => PriceOrZero(v) >= t
  }

  function SearchTest(search: string): Vehicle -> bool {
    v => TextMatch(search, v)
  }

  function BrandTest(brand: string): Vehicle -> bool {
    (v: Vehicle) => v.brand == Some(brand)
  }

  function YearTest(year: string): Vehicle -> bool {
    v => YearText(v) == year
  }

  function CategoryTest(category: string): Vehicle -> bool {
    (v: Vehicle) => v.category == Some(category)
  }

  function PriceTest(band: PriceBand): Vehicle -> bool {
    v => InBand(band, v)
  }

  /** The filter stages of `applyFilters`, in the order the code runs them;
      a stage whose control is empty is skipped. */
  function Filtered(vs: seq<Vehicle>, c: Criteria): (r: seq<Vehicle>)
    ensures r == Matching(vs, c)
  {
    var search := ToLower(c.search);
    var r0 := Filter(vs, IsAvailable);
    var r1 := if search != "" then Filter(r0, SearchTest(search)) else r0;
    var r2 := if c.brand != "" then Filter(r1, BrandTest(c.brand)) else r1;
    var r3 := if c.year != "" then Filter(r2, YearTest(c.year)) else r2;
    var r4 := if c.category != "" then Filter(r3, CategoryTest(c.category)) else r3;
    FilteredIsMatching(vs, c);
    if !c.price.AnyPrice? then Filter(r4, PriceTest(c.price)) else r4
  }

  // ---------------------------------------------------------------------
  // Sorting
  // ---------------------------------------------------------------------

  /** Sort key of `price_desc`: the comparator subtracts in the other
      order, which is an ascending sort on the negated price. The key of
      `price_asc` is `PriceOrZero` itself, since subtracting the prices
      reads a `null` price as 0. */
  function DescPriceKey(v: Vehicle): int {
    -PriceOrZero(v)
  }

  /** Sort key of `newest`: descending id, the highest id first. */
  function NewestKey(v: Vehicle): int {
    -v.id
  }

  /** The key the sort select chooses; any other value leaves the order. */
  function SortKey(mode: string): Option<Vehicle -> int> {
    if mode == "price_asc" then Some(PriceOrZero)
    else if mode == "price_desc" then Some(DescPriceKey)
    else if mode == "newest" then Some(NewestKey)
    else None
  }

  function SortResult(s: seq<Vehicle>, mode: string): seq<Vehicle> {
    match SortKey(mode)
    case Some(key) => SortBy(s, key)
    case None => s
  }

  /** `applyFilters`: the list handed to `renderVehicles(result, true)`. */
  function ApplyFilters(vs: seq<Vehicle>, c: Criteria): (r: seq<Vehicle>)
    ensures multiset(r) == multiset(Matching(vs, c))
    ensures SortKey(c.sort).Some? ==> SortedBy(r, SortKey(c.sort).value)
    ensures SortKey(c.sort).None? ==> r == Matching(vs, c)
  {
    SortResult(Filtered(vs, c), c.sort)
  }

  // ---------------------------------------------------------------------
  // What the pipeline selects
  // ---------------------------------------------------------------------

  /** The search box keeps a vehicle when it is empty or when the
      lower-cased text occurs in the lower-cased brand or model. */
  predicate PassesSearch(c: Criteria, v: Vehicle) {
    c.search == "" || TextMatch(ToLower(c.search), v)
  }

  predicate PassesBrand(c: Criteria, v: Vehicle) {
    c.brand == "" || v.brand == Some(c.brand)
  }

  predicate PassesYear(c: Criteria, v: Vehicle) {
    c.year == "" || YearText(v) == c.year
  }

  predicate PassesCategory(c: Criteria, v: Vehicle) {
    c.category == "" || v.category == Some(c.category)
  }

  /** A vehicle is listed when it is available and every control accepts
      it: the controls combine by AND and an empty control accepts all. */
  predicate Selected(c: Criteria, v: Vehicle) {
    && IsAvailable(v)
    && PassesSearch(c, v)
    && PassesBrand(c, v)
    && PassesYear(c, v)
    && PassesCategory(c, v)
    && InBand(c.price, v)
  }

  function SelectedTest(c: Criteria): Vehicle -> bool {
    v => Selected(c, v)
  }

  /** The selected vehicles in their loaded order. */
  function Matching(vs: seq<Vehicle>, c: Criteria): seq<Vehicle> {
    Filter(vs, SelectedTest(c))
  }

  /** One optional stage on top of a filter is a filter by the conjunction. */
  lemma {:induction false} Stage(s: seq<Vehicle>, q: Vehicle -> bool, active: bool, p: Vehicle -> bool, q2: Vehicle -> bool)
    requires forall x :: q2(x) == (q(x) && (!active || p(x)))
    ensures (if active then Filter(Filter(s, q), p) else Filter(s, q)) == Filter(s, q2)
  {
    if active {
      FilterFilter(s, q, p, q2);
    } else {
      FilterCongruent(s, q, q2);
    }
  }

  /** The chain of stages, spelled out as in `Filtered`, selects exactly
      `Matching`, in loaded order. */
  lemma {:induction false} FilteredIsMatching(vs: seq<Vehicle>, c: Criteria)
    ensures var search := ToLower(c.search);
      var r0 := Filter(vs, IsAvailable);
      var r1 := if search != "" then Filter(r0, SearchTest(search)) else r0;
      var r2 := if c.brand != "" then Filter(r1, BrandTest(c.brand)) else r1;
      var r3 := if c.year != "" then Filter(r2, YearTest(c.year)) else r2;
      var r4 := if c.category != "" then Filter(r3, CategoryTest(c.category)) else r3;
      (if !c.price.AnyPrice? then Filter(r4, PriceTest(c.price)) else r4) == Matching(vs, c)
  {
    var search := ToLower(c.search);
    assert search == "" <==> c.search == "";
    var q0: Vehicle -> bool := IsAvailable;
    var q1: Vehicle -> bool := v => IsAvailable(v) && PassesSearch(c, v);
    var q2: Vehicle -> bool := v => q1(v) && PassesBrand(c, v);
    var q3: Vehicle -> bool := v => q2(v) && PassesYear(c, v);
    var q4: Vehicle -> bool := v => q3(v) && PassesCategory(c, v);
    var q5: Vehicle -> bool := v => q4(v) && InBand(c.price, v);
    Stage(vs, q0, search != "", SearchTest(search), q1);
    Stage(vs, q1, c.brand != "", BrandTest(c.brand), q2);
    Stage(vs, q2, c.year != "", YearTest(c.year), q3);
    Stage(vs, q3, c.category != "", CategoryTest(c.category), q4);
    Stage(vs, q4, !c.price.AnyPrice?, PriceTest(c.price), q5);
    FilterCongruent(vs, q5, SelectedTest(c));
  }

  /** `applyFilters` lists exactly the selected vehicles, each as often as
      it was loaded: the result is a permutation of `Matching`, and in
      particular every listed vehicle is available. */
  lemma {:induction false} ApplyFiltersContents(vs: seq<Vehicle>, c: Criteria, v: Vehicle)
    ensures multiset(ApplyFilters(vs, c))[v] == if Selected(c, v) then multiset(vs)[v] else 0
    ensures v in ApplyFilters(vs, c) ==> v.status == Available
    ensures multiset(ApplyFilters(vs, c)) == multiset(Matching(vs, c))
  {
    FilterMultiset(vs, SelectedTest(c), v);
    assert v in ApplyFilters(vs, c) <==> multiset(ApplyFilters(vs, c))[v] > 0;
  }

  /** The order of the list: ascending price, descending price or
      descending id for the three sort values, each stable (vehicles that
      tie keep their loaded order); any other sort value keeps the loaded
      order. */
  lemma {:induction false} ApplyFiltersOrder(vs: seq<Vehicle>, c: Criteria, k: int)
    ensures var r := ApplyFilters(vs, c);
      c.sort == "price_asc" ==> forall i, j :: 0 <= i < j < |r| ==> PriceOrZero(r[i]) <= PriceOrZero(r[j])
    ensures var r := ApplyFilters(vs, c);
      c.sort == "price_desc" ==> forall i, j :: 0 <= i < j < |r| ==> PriceOrZero(r[i]) >= PriceOrZero(r[j])
    ensures var r := ApplyFilters(vs, c);
      c.sort == "newest" ==> forall i, j :: 0 <= i < j < |r| ==> r[i].id >= r[j].id
    ensures SortKey(c.sort).Some? ==>
      WithKey(ApplyFilters(vs, c), SortKey(c.sort).value, k) == WithKey(Matching(vs, c), SortKey(c.sort).value, k)
    ensures SortKey(c.sort).None? ==> ApplyFilters(vs, c) == Matching(vs, c)
  {
    var r := ApplyFilters(vs, c);
    if SortKey(c.sort).Some? {
      var key := SortKey(c.sort).value;
      SortByStable(Matching(vs, c), key, k);
      assert SortedBy(r, key);
    }
  }

  /** With no two selected prices equal, `price_desc` lists the vehicles in
      exactly the reverse of the `price_asc` order. */
  lemma {:induction false} PriceDescReversesAsc(vs: seq<Vehicle>, c: Criteria)
    requires c.sort == "price_asc"
    requires DistinctKeys(Matching(vs, c), PriceOrZero)
    ensures ApplyFilters(vs, c.(sort := "price_desc")) == Reverse(ApplyFilters(vs, c))
  {
    var d := c.(sort := "price_desc");
    assert Matching(vs, d) == Matching(vs, c) by {
      assert Filtered(vs, d) == Filtered(vs, c);
    }
    SortByNegatedIsReverse(Matching(vs, c), PriceOrZero, DescPriceKey);
  }

  /** The search box by the reference meaning of "contains": an empty box
      keeps everything, otherwise the lower-cased text must occur in the
      lower-cased brand or model. */
  lemma {:induction false} SearchMeaning(c: Criteria, v: Vehicle)
    ensures c.search == "" ==> PassesSearch(c, v)
    ensures c.search != "" ==>
      (PassesSearch(c, v) <==>
        || (v.brand.Some? && OccursIn(ToLower(c.search), ToLower(v.brand.value)))
        || (v.model.Some? && OccursIn(ToLower(c.search), ToLower(v.model.value))))
  {
    if v.brand.Some? {
      IncludesIff(ToLower(v.brand.value), ToLower(c.search));
    }
    if v.model.Some? {
      IncludesIff(ToLower(v.model.value), ToLower(c.search));
    }
  }

  /** Choosing the year option printed from `y` keeps exactly the vehicles
      of year `y`: comparing the printed year with the option's text is
      year equality, and a vehicle without a year never matches. */
  lemma {:induction false} YearOptionSelects(c: Criteria, v: Vehicle, y: int)
    requires c.year == IntToString(y)
    ensures PassesYear(c, v) <==> v.year == Some(y)
  {
    if v.year.Some? {
      IntToStringInjective(v.year.value, y);
    } else {
      assert "null"[0] == 'n';
    }
  }
}

=== FILE: comments.dfy ===
/** The comment service of back/server1.js: a JSON file holding a list of
    comments, read whole and rewritten whole by each request.
 */
module Comments {
  import opened JsValues
  import opened Seqs

  const InvalidData: string := "Dados inválidos"

  /** One stored comment; `id` is the clock reading taken when it was posted
      and `data` its printed date. */
  datatype Comment = Comment(id: int, nome: Field, comentario: Field, data: string)

  /** The comments file: absent, present but not parseable, or a list. */
  datatype CommentFile = Missing | Unreadable | Stored(comments: seq<Comment>)

  datatype Reply = Invalid(error: string) | Success

  /** `readComments`: a missing or unparseable file reads as no comments. */
  function ReadComments(f: CommentFile): (r: seq<Comment>)
    ensures !f.Stored? ==> r == []
    ensures f.Stored? ==> r == f.comments
  {
    match f
    case Stored(cs) => cs
    case _ => []
  }

  /** POST /api/comments. `now` and `stamp` are the clock reading and its
      printed form. A request whose `nome` or `comentario` is falsy is
      refused with 400 and the file is not touched; otherwise the comment is
      appended after everything that could be read and the whole list is
      written back. */
  function PostComment(f: CommentFile, nome: Field, comentario: Field, now: int, stamp: string): (r: (Reply, CommentFile))
    ensures r.0.Invalid? <==> !Truthy(nome) || !Truthy(comentario)
    ensures r.0.Invalid? ==> r.0.error == InvalidData && r.1 == f
    ensures r.0 == Success ==>
      && r.1.Stored?
      && |r.1.comments| == |ReadComments(f)| + 1
      && r.1.comments[..|ReadComments(f)|] == ReadComments(f)
      && r.1.comments[|ReadComments(f)|] == Comment(now, nome, comentario, stamp)
  {
    if !Truthy(nome) || !Truthy(comentario) then (Invalid(InvalidData), f)
    else (Success, Stored(ReadComments(f) + [Comment(now, nome, comentario, stamp)]))
  }

  function IdIsNot(id: Option<int>): Comment -> bool {
    (c: Comment) => id.None? || c.id != id.value
  }

  /** DELETE /api/comments/:id. `pathId` is `Number` of the path segment,
      `None` when that is NaN, which equals no id. Every comment with that
      id is dropped, the rest are written back in order, and success is
      reported whether or not anything was removed. */
  function DeleteComment(f: CommentFile, pathId: Option<int>): (r: (Reply, CommentFile))
    ensures r.0 == Success && r.1.Stored?
    ensures pathId.Some? ==> forall i :: 0 <= i < |r.1.comments| ==> r.1.comments[i].id != pathId.value
  {
    (Success, Stored(Filter(ReadComments(f), IdIsNot(pathId))))
  }

  /** What DELETE keeps: exactly the readable comments with another id, in
      their order; a second identical DELETE changes nothing; an id no
      comment has (or a NaN id) leaves the list as it read. */
  lemma {:induction false} DeleteSpec(f: CommentFile, pathId: Option<int>, c: Comment)
    ensures var after := ReadComments(DeleteComment(f, pathId).1);
      c in after <==> c in ReadComments(f) && (pathId.None? || c.id != pathId.value)
    ensures IsSubseq(ReadComments(DeleteComment(f, pathId).1), ReadComments(f))
    ensures DeleteComment(DeleteComment(f, pathId).1, pathId) == DeleteComment(f, pathId)
    ensures (pathId.None? || forall i :: 0 <= i < |ReadComments(f)| ==> ReadComments(f)[i].id != pathId.value)
      ==> ReadComments(DeleteComment(f, pathId).1) == ReadComments(f)
  {
    var cs := ReadComments(f);
    FilterMultiset(cs, IdIsNot(pathId), c);
    FilterIsSubseq(cs, IdIsNot(pathId));
    FilterIdempotent(cs, IdIsNot(pathId));
    if pathId.None? || forall i :: 0 <= i < |cs| ==> cs[i].id != pathId.value {
      FilterAll(cs, IdIsNot(pathId));
    }
  }

  /** Deleting a just-posted comment by its id undoes the post, provided no
      earlier comment carries the same clock reading. */
  lemma {:induction false} DeleteUndoesPost(f: CommentFile, nome: Field, comentario: Field, now: int, stamp: string)
    requires Truthy(nome) && Truthy(comentario)
    requires forall i :: 0 <= i < |ReadComments(f)| ==> ReadComments(f)[i].id != now
    ensures ReadComments(DeleteComment(PostComment(f, nome, comentario, now, stamp).1, Some(now)).1) == ReadComments(f)
  {
    var cs := ReadComments(f);
    var added := Comment(now, nome, comentario, stamp);
    FilterConcat(cs, [added], IdIsNot(Some(now)));
    FilterAll(cs, IdIsNot(Some(now)));
    assert Filter([added], IdIsNot(Some(now))) == [];
  }

  /** A valid POST over a file that cannot be parsed replaces it with a
      list holding only the new comment: the unreadable content is lost. */
  lemma PostOverUnreadable(nome: Field, comentario: Field, now: int, stamp: string)
    requires Truthy(nome) && Truthy(comentario)
    ensures PostComment(Unreadable, nome, comentario, now, stamp).1 == Stored([Comment(now, nome, comentario, stamp)])
  {
  }
}

=== FILE: home.dfy ===
/** The home page (js/home1.js): the featured-vehicle strip, the brand
    select filled from the stock, and the search button that opens the
    listing page filtered by the chosen brand (read back there by
    `applyUrlFilters` in js/vehicles.js).
 */
module Home {
  import opened JsValues
  import opened Text
  import opened Seqs
  import opened Sorting
  import opened Vehicles
  import opened Catalog

  /** At most this many featured vehicles are shown. */
  const FeaturedLimit: nat := 6

  /** Listing page address, and the prefix of its brand query. */
  const ListingPage: string := "vehicles.html"
  const BrandQuery: string := "vehicles.html?brand="

  predicate IsFeaturedInStock(v: Vehicle) {
    IsAvailable(v) && v.featured
  }

  /** `renderFeatured`: the available featured vehicles in loaded order,
      cut to the first six. */
  function FeaturedVehicles(vs: seq<Vehicle>): (r: seq<Vehicle>)
    ensures |r| <= FeaturedLimit
    ensures forall i :: 0 <= i < |r| ==> IsAvailable(r[i]) && r[i].featured
    ensures var all := Filter(vs, IsFeaturedInStock);
      |r| == (if |all| < FeaturedLimit then |all| else FeaturedLimit) && r == all[..|r|]
  {
    Take(Filter(vs, IsFeaturedInStock), FeaturedLimit)
  }

  /** The featured strip leaves a qualifying vehicle out only when six
      earlier ones already fill it: every shown vehicle is an available,
      featured, loaded one, and when at most six qualify all of them are
      shown. */
  lemma {:induction false} FeaturedComplete(vs: seq<Vehicle>, v: Vehicle)
    ensures v in FeaturedVehicles(vs) ==> v in vs && IsFeaturedInStock(v)
    ensures |Filter(vs, IsFeaturedInStock)| <= FeaturedLimit && v in vs && IsFeaturedInStock(v)
      ==> v in FeaturedVehicles(vs)
  {
    var all := Filter(vs, IsFeaturedInStock);
    FilterMultiset(vs, IsFeaturedInStock, v);
    if v in FeaturedVehicles(vs) {
      assert v in all;
    }
    if |all| <= FeaturedLimit {
      assert FeaturedVehicles(vs) == all;
    }
  }

  /** `loadBrandsFromStock`: the distinct non-empty brands of the available
      vehicles, ascending. */
  function StockBrands(vs: seq<Vehicle>): (r: seq<string>)
    ensures forall b :: b in r <==> b != "" && StockHasBrand(vs, b)
    ensures StrictlySorted(r, StrLt)
  {
    var stock := Filter(vs, IsAvailable);
    assert forall b :: StockHasBrand(vs, b) <==> HasBrand(stock, b) by {
      forall b
        ensures StockHasBrand(vs, b) <==> HasBrand(stock, b)
      {
        StockBrand(vs, b);
      }
    }
    BrandOptions(stock)
  }

  /** Some available vehicle has brand `b`. */
  ghost predicate StockHasBrand(vs: seq<Vehicle>, b: string) {
    exists i :: 0 <= i < |vs| && IsAvailable(vs[i]) && vs[i].brand == Some(b)
  }

  /** Some vehicle of `vs` has brand `b`. */
  ghost predicate HasBrand(vs: seq<Vehicle>, b: string) {
    exists i :: 0 <= i < |vs| && vs[i].brand == Some(b)
  }

  lemma {:induction false} StockBrand(vs: seq<Vehicle>, b: string)
    ensures StockHasBrand(vs, b) <==> HasBrand(Filter(vs, IsAvailable), b)
  {
    var stock := Filter(vs, IsAvailable);
    if exists i :: 0 <= i < |stock| && stock[i].brand == Some(b) {
      var i :| 0 <= i < |stock| && stock[i].brand == Some(b);
      FilterMultiset(vs, IsAvailable, stock[i]);
      var j :| 0 <= j < |vs| && vs[j] == stock[i];
    }
    if StockHasBrand(vs, b) {
      var i :| 0 <= i < |vs| && IsAvailable(vs[i]) && vs[i].brand == Some(b);
      FilterMultiset(vs, IsAvailable, vs[i]);
      var j :| 0 <= j < |stock| && stock[j] == vs[i];
    }
  }

  /** Every brand the home page offers is also an option of the listing
      page's brand select. */
  lemma StockBrandsAreOptions(vs: seq<Vehicle>, b: string)
    requires b in StockBrands(vs)
    ensures b in BrandOptions(vs)
  {
  }

  /** A brand the home page offers is never an empty search: opening the
      listing page with that brand shows at least one vehicle. */
  lemma {:induction false} StockBrandNonEmpty(vs: seq<Vehicle>, b: string, sort: string)
    requires b in StockBrands(vs)
    ensures ApplyFilters(vs, Criteria("", b, "", "", AnyPrice, sort)) != []
  {
    var c := Criteria("", b, "", "", AnyPrice, sort);
    assert StockHasBrand(vs, b);
    var i :| 0 <= i < |vs| && IsAvailable(vs[i]) && vs[i].brand == Some(b);
    assert Selected(c, vs[i]);
    ApplyFiltersContents(vs, c, vs[i]);
    assert multiset(vs)[vs[i]] > 0;
  }

  /** The search button's target: the bare listing page when no brand is
      chosen, otherwise the brand passed through `encode` (the URI component
      encoder) as the `brand` query parameter. */
  function SearchUrl(brand: string, encode: string -> string): (r: string)
    ensures brand == "" ==> r == ListingPage
    ensures brand != "" ==> StartsWith(r, BrandQuery) && r[|BrandQuery|..] == encode(brand)
  {
    if brand == "" then ListingPage else BrandQuery + encode(brand)
  }

  /** The `brand` parameter the listing page reads back from an address of
      this shape, decoded with `decode`; `None` when there is none. */
  function BrandParam(url: string, decode: string -> string): (r: Option<string>)
    ensures r.Some? <==> StartsWith(url, BrandQuery)
    ensures r.Some? ==> r.value == decode(url[|BrandQuery|..])
    ensures url == ListingPage ==> r.None?
  {
    if StartsWith(url, BrandQuery) then Some(decode(url[|BrandQuery|..])) else None
  }

  /** `applyUrlFilters`: a non-empty `brand` parameter is written into the
      brand select whose options are `options`. A select given a value none
      of its options has selects nothing and then reads as `""`, so an
      unknown brand clears the brand control instead of setting it. Without
      a non-empty parameter the controls are left alone. */
  function ApplyUrlFilters(c: Criteria, options: seq<string>, param: Option<string>): (r: Criteria)
    ensures param.Some? && param.value != "" && param.value in options ==> r == c.(brand := param.value)
    ensures param.Some? && param.value != "" && param.value !in options ==> r == c.(brand := "")
    ensures param.None? || param.value == "" ==> r == c
  {
    match param
    case Some(b) => if b == "" then c else if b in options then c.(brand := b) else c.(brand := "")
    case None => c
  }

  /** Searching from the home page round-trips the brand: when `decode`
      undoes `encode`, the listing page opens with its controls untouched
      when no brand was chosen, with exactly the chosen brand selected when
      the listing offers it, and with the brand control cleared when it
      does not. */
  lemma SearchRoundTrip(c: Criteria, options: seq<string>, brand: string, encode: string -> string, decode: string -> string)
    requires forall s :: decode(encode(s)) == s
    ensures ApplyUrlFilters(c, options, BrandParam(SearchUrl(brand, encode), decode))
      == if brand == "" then c else if brand in options then c.(brand := brand) else c.(brand := "")
  {
    if brand != "" {
      var url := SearchUrl(brand, encode);
      assert url[..|BrandQuery|] == BrandQuery;
      assert url[|BrandQuery|..] == encode(brand);
    }
  }

  /** A brand chosen in the home page's select lands on the listing page
      selected, and the listing it opens is not empty: the home select
      offers only brands the listing's select also offers. */
  lemma {:induction false} HomeSearchLands(vs: seq<Vehicle>, c: Criteria, brand: string, encode: string -> string, decode: string -> string)
    requires forall s :: decode(encode(s)) == s
    requires brand in StockBrands(vs)
    ensures ApplyUrlFilters(c, BrandOptions(vs), BrandParam(SearchUrl(brand, encode), decode)) == c.(brand := brand)
  {
    StockBrandsAreOptions(vs, brand);
    SearchRoundTrip(c, BrandOptions(vs), brand, encode, decode);
  }

  /** A brand link to a brand no loaded vehicle has (the fixed logo grid
      links every listed make, stocked or not) opens the listing with the
      brand control cleared: the page then lists vehicles of every brand. */
  lemma {:induction false} UnstockedBrandLink(vs: seq<Vehicle>, c: Criteria, brand: string, encode: string -> string, decode: string -> string)
    requires forall s :: decode(encode(s)) == s
    requires brand != "" && forall i :: 0 <= i < |vs| ==> vs[i].brand != Some(brand)
    ensures ApplyUrlFilters(c, BrandOptions(vs), BrandParam(SearchUrl(brand, encode), decode)) == c.(brand := "")
  {
    assert brand !in BrandOptions(vs);
    SearchRoundTrip(c, BrandOptions(vs), brand, encode, decode);
  }
}

=== FILE: pager.dfy ===
/** The incremental card grid of the listing page (js/vehicles.js,
    `renderVehicles` and the scroll handler): a reset installs a new list and
    shows its first batch; each scroll near the bottom appends the next
    batch until the whole list is on screen.
 */
module Pager {
  import opened Text
  import opened Seqs
  import opened Vehicles

  /** Cards appended per render call. */
  const BatchSize: nat := 6

  /** What one card shows that the model keeps: its picture and the page its
      click opens. */
  datatype Card = Card(image: string, link: string)

  function CardOf(v: Vehicle): Card {
    Card(CardImage(v), "vehicle-details.html?id=" + IntToString(v.id))
  }

  function Cards(vs: seq<Vehicle>): (r: seq<Card>)
    ensures |r| == |vs|
    ensures forall i :: 0 <= i < |vs| ==> r[i] == CardOf(vs[i])
  {
    seq(|vs|, i requires 0 <= i < |vs| => CardOf(vs[i]))
  }

  lemma CardsConcat(a: seq<Vehicle>, b: seq<Vehicle>)
    ensures Cards(a + b) == Cards(a) + Cards(b)
  {
  }

  /** The page's grid, the `displayed` counter and `currentFiltered`. */
  datatype Grid = Grid(cards: seq<Card>, displayed: nat, current: seq<Vehicle>)

  /** The grid shows the first `displayed` vehicles of the current list, in
      order, one card each. */
  predicate Valid(g: Grid) {
    g.displayed <= |g.current| && g.cards == Cards(g.current[..g.displayed])
  }

  function Min(a: int, b: int): int {
    if a <= b then a else b
  }

  /** `renderVehicles(list, reset)`. With `reset` the grid is emptied and
      `list` becomes the current list; then the next batch of at most
      `BatchSize` vehicles after the displayed ones is appended. */
  function Render(g: Grid, list: seq<Vehicle>, reset: bool): (r: Grid)
    requires reset || Valid(g)
    ensures Valid(r)
    ensures r.current == if reset then list else g.current
    ensures r.displayed == Min((if reset then 0 else g.displayed) + BatchSize, |r.current|)
    ensures !reset ==> r.cards[..|g.cards|] == g.cards
  {
    var start := if reset then Grid([], 0, list) else g;
    var batch := Slice(start.current, start.displayed, start.displayed + BatchSize);
    var hi := Min(start.displayed + BatchSize, |start.current|);
    assert batch == start.current[start.displayed..hi];
    assert start.current[..hi] == start.current[..start.displayed] + batch;
    CardsConcat(start.current[..start.displayed], batch);
    Grid(start.cards + Cards(batch), hi, start.current)
  }

  /** The scroll handler: near the bottom of the page, and only while some
      vehicle of the current list is not yet shown, render the next batch. */
  function OnScroll(g: Grid, nearBottom: bool): (r: Grid)
    requires Valid(g)
    ensures Valid(r)
    ensures r.current == g.current && g.displayed <= r.displayed && r.cards[..|g.cards|] == g.cards
    ensures r.displayed > g.displayed <==> nearBottom && g.displayed < |g.current|
  {
    if nearBottom && g.displayed < |g.current| then Render(g, g.current, false) else g
  }

  /** The grid after a reset with `list` followed by `k` scrolls to the
      bottom. */
  function AfterScrolls(list: seq<Vehicle>, k: nat): (r: Grid)
    ensures Valid(r)
  {
    if k == 0 then Render(Grid([], 0, []), list, true) else OnScroll(AfterScrolls(list, k - 1), true)
  }

  /** A reset forgets the old grid: the result depends only on `list`. */
  lemma ResetForgets(g: Grid, h: Grid, list: seq<Vehicle>)
    ensures Render(g, list, true) == Render(h, list, true)
  {
  }

  /** A scroll when everything is shown, or away from the bottom, changes
      nothing. */
  lemma ScrollIdle(g: Grid, nearBottom: bool)
    requires Valid(g)
    requires !nearBottom || g.displayed == |g.current|
    ensures OnScroll(g, nearBottom) == g
  {
  }

  /** After a reset and `k` scrolls, the first `min(6(k+1), n)` vehicles of
      the list are shown, in order: the list is revealed batch by batch and
      nothing is shown twice or skipped. */
  lemma {:induction false} ScrollsReveal(list: seq<Vehicle>, k: nat)
    ensures AfterScrolls(list, k).current == list
    ensures AfterScrolls(list, k).displayed == Min(BatchSize * (k + 1), |list|)
    ensures AfterScrolls(list, k).cards == Cards(list[..Min(BatchSize * (k + 1), |list|)])
  {
    if k > 0 {
      ScrollsReveal(list, k - 1);
    }
  }

  /** Enough scrolls show the whole list. */
  lemma {:induction false} ScrollsShowAll(list: seq<Vehicle>, k: nat)
    requires BatchSize * (k + 1) >= |list|
    ensures AfterScrolls(list, k).cards == Cards(list)
  {
    ScrollsReveal(list, k);
    assert list[..|list|] == list;
  }
}

=== FILE: seqs.dfy ===
/** Sequence operations the scripts use through `Array.prototype`:
    `filter`, `slice`, and order-preserving selection.
 */
module Seqs {

  /** `Array.prototype.filter`: the elements that satisfy `p`, in order. */
  function Filter<T(!new)>(s: seq<T>, p: T -> bool): (r: seq<T>)
    ensures |r| <= |s|
    ensures forall i :: 0 <= i < |r| ==> p(r[i])
  {
    if |s| == 0 then [] else (if p(s[0]) then [s[0]] else []) + Filter(s[1..], p)
  }

  /** An element survives the filter exactly when it is in `s` and
      satisfies `p`, and it survives as often as it occurs in `s`. */
  lemma {:induction false} FilterMultiset<T(!new)>(s: seq<T>, p: T -> bool, x: T)
    ensures multiset(Filter(s, p))[x] == if p(x) then multiset(s)[x] else 0
    ensures x in Filter(s, p) <==> x in s && p(x)
  {
    if |s| > 0 {
      FilterMultiset(s[1..], p, x);
      assert s == [s[0]] + s[1..];
    }
  }

  /** `a` is `b` with some elements deleted and the rest kept in order. */
  predicate IsSubseq<T(==)>(a: seq<T>, b: seq<T>)
    decreases |b|
  {
    if |a| == 0 then true
    else if |b| == 0 then false
    else if a[0] == b[0] then IsSubseq(a[1..], b[1..])
    else IsSubseq(a, b[1..])
  }

  /** Filtering keeps the surviving elements in their original order. */
  lemma {:induction false} FilterIsSubseq<T(!new)>(s: seq<T>, p: T -> bool)
    ensures IsSubseq(Filter(s, p), s)
  {
    if |s| > 0 {
      FilterIsSubseq(s[1..], p);
      var rest := Filter(s[1..], p);
      if p(s[0]) {
        assert Filter(s, p)[1..] == rest;
      } else {
        assert Filter(s, p) == rest;
        if |rest| > 0 {
          assert p(rest[0]);
        }
      }
    }
  }

  /** Two filters in a row select what their conjunction selects, in the
      same order: chained `.filter` calls combine by AND. */
  lemma {:induction false} FilterFilter<T(!new)>(s: seq<T>, p: T -> bool, q: T -> bool, pq: T -> bool)
    requires forall x :: pq(x) == (p(x) && q(x))
    ensures Filter(Filter(s, p), q) == Filter(s, pq)
  {
    if |s| > 0 {
      FilterFilter(s[1..], p, q, pq);
      if p(s[0]) {
        assert Filter(s, p) == [s[0]] + Filter(s[1..], p);
        assert ([s[0]] + Filter(s[1..], p))[1..] == Filter(s[1..], p);
      } else {
        assert Filter(s, p) == Filter(s[1..], p);
        assert !pq(s[0]);
      }
    }
  }

  /** A filter whose predicate holds of every element keeps everything. */
  lemma {:induction false} FilterAll<T(!new)>(s: seq<T>, p: T -> bool)
    requires forall i :: 0 <= i < |s| ==> p(s[i])
    ensures Filter(s, p) == s
  {
    if |s| > 0 {
      FilterAll(s[1..], p);
    }
  }

  /** Filters with predicates that agree on the elements of `s` agree. */
  lemma {:induction false} FilterCongruent<T(!new)>(s: seq<T>, p: T -> bool, q: T -> bool)
    requires forall i :: 0 <= i < |s| ==> p(s[i]) == q(s[i])
    ensures Filter(s, p) == Filter(s, q)
  {
    if |s| > 0 {
      FilterCongruent(s[1..], p, q);
    }
  }

  /** Filtering is idempotent. */
  lemma FilterIdempotent<T(!new)>(s: seq<T>, p: T -> bool)
    ensures Filter(Filter(s, p), p) == Filter(s, p)
  {
    FilterAll(Filter(s, p), p);
  }

  /** Filtering distributes over concatenation. */
  lemma {:induction false} FilterConcat<T(!new)>(a: seq<T>, b: seq<T>, p: T -> bool)
    ensures Filter(a + b, p) == Filter(a, p) + Filter(b, p)
  {
    if |a| > 0 {
      FilterConcat(a[1..], b, p);
      assert (a + b)[1..] == a[1..] + b;
    } else {
      assert a + b == b;
    }
  }

  /** The first `n` elements, or all of `s` when it is shorter. */
  function Take<T>(s: seq<T>, n: nat): (r: seq<T>)
    ensures |r| == if n < |s| then n else |s|
    ensures r == s[..|r|]
  {
    if n < |s| then s[..n] else s
  }

  /** The elements from index `from` up to `to`, for non-negative bounds:
      both are clamped to the length and an empty range gives `[]`. */
  function Slice<T>(s: seq<T>, from: nat, to: nat): (r: seq<T>)
    ensures from <= |s| && from <= to ==> r == s[from..if to < |s| then to else |s|]
    ensures from >= |s| || to <= from ==> r == []
  {
    var hi := if to < |s| then to else |s|;
    if from < hi then s[from..hi] else []
  }

  /** The elements of `s` in the opposite order. */
  function Reverse<T>(s: seq<T>): (r: seq<T>)
    ensures |r| == |s|
  {
    if |s| == 0 then [] else Reverse(s[1..]) + [s[0]]
  }

  /** Element `i` of the reverse is element `|s| - 1 - i` of `s`. */
  lemma {:induction false} ReverseIndex<T>(s: seq<T>)
    ensures forall i :: 0 <= i < |s| ==> Reverse(s)[i] == s[|s| - 1 - i]
  {
    if |s| > 0 {
      ReverseIndex(s[1..]);
    }
  }

  /** A sequence of at most one element is its own reverse. */
  lemma ReverseShort<T>(s: seq<T>)
    requires |s| <= 1
    ensures Reverse(s) == s
  {
  }
}

=== FILE: sorting.dfy ===
/** Sorting as the scripts use it. `Array.prototype.sort` is stable (ECMAScript
    2019 on), so sorting by a numeric comparator is modelled as a stable
    insertion sort on an integer key; a descending comparator (`b.x - a.x`)
    is an ascending sort on the negated key. `[...new Set(xs)].sort()` is
    modelled as building the strictly increasing list of the distinct
    elements.
 */
module Sorting {
  import opened Seqs

  // ---------------------------------------------------------------------
  // Stable sort on an integer key
  // ---------------------------------------------------------------------

  predicate SortedBy<T>(s: seq<T>, key: T -> int) {
    forall i, j :: 0 <= i < j < |s| ==> key(s[i]) <= key(s[j])
  }

  /** The elements of `s` whose key is `k`, in their order in `s`. */
  function WithKey<T(!new)>(s: seq<T>, key: T -> int, k: int): seq<T> {
    Filter(s, x => key(x) == k)
  }

  /** Inserts `x` in front of the first element whose key is not smaller. */
  function Insert<T>(x: T, s: seq<T>, key: T -> int): (r: seq<T>)
    requires SortedBy(s, key)
    ensures SortedBy(r, key)
    ensures multiset(r) == multiset(s) + multiset{x}
    ensures |r| == |s| + 1
    ensures r[0] == x || (|s| > 0 && r[0] == s[0])
  {
    if |s| == 0 || key(x) <= key(s[0]) then [x] + s
    else
      var rest := Insert(x, s[1..], key);
      assert s == [s[0]] + s[1..];
      assert key(s[0]) <= key(rest[0]);
      ConsSorted(s[0], rest, key);
      [s[0]] + rest
  }

  /** An element no larger than the head of a sorted sequence can go in
      front of it. */
  lemma ConsSorted<T>(h: T, t: seq<T>, key: T -> int)
    requires SortedBy(t, key)
    requires |t| > 0 ==> key(h) <= key(t[0])
    ensures SortedBy([h] + t, key)
  {
    var r := [h] + t;
    forall i, j | 0 <= i < j < |r|
      ensures key(r[i]) <= key(r[j])
    {
      if i == 0 {
        assert r[j] == t[j - 1];
      }
    }
  }

  /** Stable ascending sort of `s` by `key`. */
  function SortBy<T>(s: seq<T>, key: T -> int): (r: seq<T>)
    ensures SortedBy(r, key)
    ensures multiset(r) == multiset(s)
    ensures |r| == |s|
  {
    if |s| == 0 then []
    else
      assert s == [s[0]] + s[1..];
      Insert(s[0], SortBy(s[1..], key), key)
  }

  /** Inserting `x` puts it in front of every element of equal key. */
  lemma {:induction false} InsertWithKey<T(!new)>(x: T, s: seq<T>, key: T -> int, k: int)
    requires SortedBy(s, key)
    ensures WithKey(Insert(x, s, key), key, k) == (if key(x) == k then [x] else []) + WithKey(s, key, k)
  {
    if |s| == 0 || key(x) <= key(s[0]) {
      assert ([x] + s)[1..] == s;
      WithKeyCons([x] + s, key, k);
    } else {
      InsertWithKey(x, s[1..], key, k);
      var rest := Insert(x, s[1..], key);
      assert ([s[0]] + rest)[1..] == rest;
      WithKeyCons([s[0]] + rest, key, k);
      WithKeyCons(s, key, k);
      if key(x) == k {
        assert key(s[0]) != k;
      }
    }
  }

  /** `SortBy` is stable: the elements of any one key keep their relative
      order. */
  lemma {:induction false} SortByStable<T(!new)>(s: seq<T>, key: T -> int, k: int)
    ensures WithKey(SortBy(s, key), key, k) == WithKey(s, key, k)
  {
    if |s| > 0 {
      SortByStable(s[1..], key, k);
      InsertWithKey(s[0], SortBy(s[1..], key), key, k);
    }
  }

  /** Peeling the first element off a sequence peels it off the run of
      its key and leaves every other key's run alone. */
  lemma WithKeyCons<T(!new)>(s: seq<T>, key: T -> int, k: int)
    requires |s| > 0
    ensures WithKey(s, key, k) == (if key(s[0]) == k then [s[0]] else []) + WithKey(s[1..], key, k)
  {
  }

  /** A non-empty run of key `k` comes from an element of key `k`. */
  lemma {:induction false} WithKeyWitness<T(!new)>(s: seq<T>, key: T -> int, k: int) returns (i: nat)
    requires |WithKey(s, key, k)| > 0
    ensures i < |s| && key(s[i]) == k
  {
    WithKeyCons(s, key, k);
    if key(s[0]) != k {
      var j := WithKeyWitness(s[1..], key, k);
      i := j + 1;
    } else {
      i := 0;
    }
  }

  /** Sortedness and stability pin the result down: any two sequences that
      are sorted by `key` and agree on every key's subsequence are equal.
      So every stable sort, whatever its algorithm, returns `SortBy`. */
  lemma {:induction false} StableSortUnique<T(!new)>(a: seq<T>, b: seq<T>, key: T -> int)
    requires SortedBy(a, key) && SortedBy(b, key)
    requires forall k :: WithKey(a, key, k) == WithKey(b, key, k)
    ensures a == b
    decreases |a|
  {
    if |a| == 0 {
      if |b| > 0 {
        WithKeyCons(b, key, key(b[0]));
      }
    } else if |b| == 0 {
      WithKeyCons(a, key, key(a[0]));
    } else {
      var ka, kb := key(a[0]), key(b[0]);
      WithKeyCons(a, key, ka);
      WithKeyCons(b, key, kb);
      assert WithKey(a, key, ka) == WithKey(b, key, ka);
      assert WithKey(a, key, kb) == WithKey(b, key, kb);
      var i := WithKeyWitness(b, key, ka);
      var j := WithKeyWitness(a, key, kb);
      assert kb <= ka && ka <= kb;
      WithKeyCons(b, key, ka);
      assert WithKey(a, key, ka)[0] == a[0] && WithKey(b, key, ka)[0] == b[0];
      forall k
        ensures WithKey(a[1..], key, k) == WithKey(b[1..], key, k)
      {
        WithKeyCons(a, key, k);
        WithKeyCons(b, key, k);
        assert WithKey(a, key, k) == WithKey(b, key, k);
        if k == ka {
          assert WithKey(a, key, k) == [a[0]] + WithKey(a[1..], key, k);
          assert WithKey(b, key, k) == [b[0]] + WithKey(b[1..], key, k);
          assert WithKey(a, key, k)[1..] == WithKey(a[1..], key, k);
          assert WithKey(b, key, k)[1..] == WithKey(b[1..], key, k);
        } else {
          assert WithKey(a, key, k) == WithKey(a[1..], key, k);
          assert WithKey(b, key, k) == WithKey(b[1..], key, k);
        }
      }
      StableSortUnique(a[1..], b[1..], key);
      assert a == [a[0]] + a[1..] && b == [b[0]] + b[1..];
    }
  }

  /** No two elements of `s` share a key. */
  predicate DistinctKeys<T>(s: seq<T>, key: T -> int) {
    forall i, j :: 0 <= i < j < |s| ==> key(s[i]) != key(s[j])
  }

  /** With distinct keys every run has at most one element. */
  lemma {:induction false} DistinctKeysRun<T(!new)>(s: seq<T>, key: T -> int, k: int)
    requires DistinctKeys(s, key)
    ensures |WithKey(s, key, k)| <= 1
  {
    if |s| > 0 {
      WithKeyCons(s, key, k);
      DistinctKeysRun(s[1..], key, k);
      if key(s[0]) == k && |WithKey(s[1..], key, k)| > 0 {
        var i := WithKeyWitness(s[1..], key, k);
      }
    }
  }

  /** The run of key `k` under the negated key is the run of `-k`. */
  lemma {:induction false} NegatedRun<T(!new)>(s: seq<T>, key: T -> int, neg: T -> int, k: int)
    requires forall x :: neg(x) == -key(x)
    ensures WithKey(s, neg, k) == WithKey(s, key, -k)
  {
    if |s| > 0 {
      WithKeyCons(s, neg, k);
      WithKeyCons(s, key, -k);
      NegatedRun(s[1..], key, neg, k);
    }
  }

  /** Runs distribute over concatenation. */
  lemma {:induction false} WithKeyConcat<T(!new)>(a: seq<T>, b: seq<T>, key: T -> int, k: int)
    ensures WithKey(a + b, key, k) == WithKey(a, key, k) + WithKey(b, key, k)
  {
    if |a| == 0 {
      assert a + b == b;
    } else {
      WithKeyCons(a + b, key, k);
      WithKeyCons(a, key, k);
      assert (a + b)[1..] == a[1..] + b;
      WithKeyConcat(a[1..], b, key, k);
    }
  }

  /** The run of a reversed sequence is the reversed run. */
  lemma {:induction false} WithKeyReverse<T(!new)>(s: seq<T>, key: T -> int, k: int)
    ensures WithKey(Reverse(s), key, k) == Reverse(WithKey(s, key, k))
  {
    if |s| > 0 {
      WithKeyReverse(s[1..], key, k);
      WithKeyConcat(Reverse(s[1..]), [s[0]], key, k);
      WithKeyCons([s[0]], key, k);
      WithKeyCons(s, key, k);
      var w := WithKey(s[1..], key, k);
      if key(s[0]) == k {
        assert ([s[0]] + w)[1..] == w;
        assert Reverse([s[0]] + w) == Reverse(w) + [s[0]];
      } else {
        assert [s[0]][1..] == [];
        assert WithKey([s[0]], key, k) == [];
        assert WithKey(s, key, k) == w;
        assert Reverse(w) + [] == Reverse(w);
      }
    }
  }

  /** Reversing an ascending sequence gives one ascending in the negated key. */
  lemma {:induction false} ReverseSorted<T>(s: seq<T>, key: T -> int, neg: T -> int)
    requires forall x :: neg(x) == -key(x)
    requires SortedBy(s, key)
    ensures SortedBy(Reverse(s), neg)
  {
    var r := Reverse(s);
    ReverseIndex(s);
    forall i, j | 0 <= i < j < |r|
      ensures neg(r[i]) <= neg(r[j])
    {
      assert r[i] == s[|s| - 1 - i] && r[j] == s[|s| - 1 - j];
    }
  }

  /** The run of `k` under the negated key in the ascending sort is the run
      of `-k` of the input. */
  lemma {:induction false} AscendingNegatedRun<T(!new)>(s: seq<T>, key: T -> int, neg: T -> int, k: int)
    requires forall x :: neg(x) == -key(x)
    ensures WithKey(SortBy(s, key), neg, k) == WithKey(s, key, -k)
  {
    NegatedRun(SortBy(s, key), key, neg, k);
    SortByStable(s, key, -k);
  }

  /** The run of `k` in the descending sort is the run of `-k` of the
      input. */
  lemma {:induction false} DescendingRun<T(!new)>(s: seq<T>, key: T -> int, neg: T -> int, k: int)
    requires forall x :: neg(x) == -key(x)
    ensures WithKey(SortBy(s, neg), neg, k) == WithKey(s, key, -k)
  {
    SortByStable(s, neg, k);
    NegatedRun(s, key, neg, k);
  }

  /** Each run of the reversed ascending sort matches the run of the
      descending sort, when the input has at most one element of key `-k`. */
  lemma {:induction false} ReversedRun<T(!new)>(s: seq<T>, key: T -> int, neg: T -> int, k: int)
    requires forall x :: neg(x) == -key(x)
    requires |WithKey(s, key, -k)| <= 1
    ensures WithKey(Reverse(SortBy(s, key)), neg, k) == WithKey(SortBy(s, neg), neg, k)
  {
    var up := SortBy(s, key);
    var run := WithKey(s, key, -k);
    assert WithKey(Reverse(up), neg, k) == Reverse(WithKey(up, neg, k)) by { WithKeyReverse(up, neg, k); }
    assert WithKey(up, neg, k) == run by { AscendingNegatedRun(s, key, neg, k); }
    assert Reverse(run) == run by { ReverseShort(run); }
    assert run == WithKey(SortBy(s, neg), neg, k) by { DescendingRun(s, key, neg, k); }
  }

  /** Sorting by the negated key reverses the ascending sort when no two
      elements tie: `price_desc` is `price_asc` backwards. */
  lemma {:induction false} SortByNegatedIsReverse<T(!new)>(s: seq<T>, key: T -> int, neg: T -> int)
    requires forall x :: neg(x) == -key(x)
    requires DistinctKeys(s, key)
    ensures SortBy(s, neg) == Reverse(SortBy(s, key))
  {
    var down := Reverse(SortBy(s, key));
    ReverseSorted(SortBy(s, key), key, neg);
    forall k
      ensures WithKey(down, neg, k) == WithKey(SortBy(s, neg), neg, k)
    {
      DistinctKeysRun(s, key, -k);
      ReversedRun(s, key, neg, k);
    }
    StableSortUnique(down, SortBy(s, neg), neg);
  }

  // ---------------------------------------------------------------------
  // Distinct elements in strictly increasing order
  // ---------------------------------------------------------------------

  ghost predicate StrictTotalOrder<T(!new)>(lt: (T, T) -> bool) {
    && (forall a :: !lt(a, a))
    && (forall a, b, c :: lt(a, b) && lt(b, c) ==> lt(a, c))
    && (forall a, b :: a != b ==> lt(a, b) || lt(b, a))
  }

  predicate StrictlySorted<T>(s: seq<T>, lt: (T, T) -> bool) {
    forall i, j :: 0 <= i < j < |s| ==> lt(s[i], s[j])
  }

  /** Adds `x` to a strictly sorted list unless it is already there. */
  function InsertDistinct<T(==,!new)>(x: T, s: seq<T>, lt: (T, T) -> bool): (r: seq<T>)
    ensures forall y :: y in r <==> y == x || y in s
  {
    if |s| == 0 then [x]
    else if x == s[0] then s
    else if lt(x, s[0]) then [x] + s
    else
      var rest := InsertDistinct(x, s[1..], lt);
      assert s == [s[0]] + s[1..];
      [s[0]] + rest
  }

  /** The distinct elements of `xs`, as the strictly increasing list. */
  function Distinct<T(==,!new)>(xs: seq<T>, lt: (T, T) -> bool): (r: seq<T>)
    ensures forall y :: y in r <==> y in xs
  {
    if |xs| == 0 then []
    else
      assert xs == [xs[0]] + xs[1..];
      InsertDistinct(xs[0], Distinct(xs[1..], lt), lt)
  }

  /** Inserting into a strictly sorted list keeps it strictly sorted. */
  lemma {:induction false} InsertDistinctSorted<T(!new)>(x: T, s: seq<T>, lt: (T, T) -> bool)
    requires StrictTotalOrder(lt) && StrictlySorted(s, lt)
    ensures StrictlySorted(InsertDistinct(x, s, lt), lt)
  {
    if |s| > 0 && x != s[0] && !lt(x, s[0]) {
      InsertDistinctSorted(x, s[1..], lt);
      var rest := InsertDistinct(x, s[1..], lt);
      forall i | 0 <= i < |rest|
        ensures lt(s[0], rest[i])
      {
        if rest[i] != x {
          assert rest[i] in s[1..];
          var j :| 0 <= j < |s[1..]| && s[1..][j] == rest[i];
          assert s[j + 1] == rest[i];
        }
      }
    }
  }

  /** `Distinct` lists its elements in strictly increasing order. */
  lemma {:induction false} DistinctSorted<T(!new)>(xs: seq<T>, lt: (T, T) -> bool)
    requires StrictTotalOrder(lt)
    ensures StrictlySorted(Distinct(xs, lt), lt)
  {
    if |xs| > 0 {
      DistinctSorted(xs[1..], lt);
      InsertDistinctSorted(xs[0], Distinct(xs[1..], lt), lt);
    }
  }

  /** A sequence without members is empty. */
  lemma NoMembersEmpty<T>(b: seq<T>)
    ensures (forall y :: y !in b) ==> b == []
  {
    if b != [] {
      assert b[0] in b;
    }
  }

  /** A strictly sorted list under a strict total order is the only one of
      its elements: so `Distinct` returns what deduplicating with a `Set`
      and then sorting returns. */
  lemma {:induction false} StrictlySortedUnique<T(!new)>(a: seq<T>, b: seq<T>, lt: (T, T) -> bool)
    requires StrictTotalOrder(lt)
    requires StrictlySorted(a, lt) && StrictlySorted(b, lt)
    requires forall y :: y in a <==> y in b
    ensures a == b
    decreases |a|
  {
    if |a| == 0 {
      NoMembersEmpty(b);
    } else {
      assert a[0] in b;
      assert b[0] in a;
      forall y
        ensures y in a[1..] <==> y in b[1..]
      {
        if y in a[1..] {
          var i :| 0 <= i < |a[1..]| && a[1..][i] == y;
          assert lt(a[0], a[i + 1]);
          assert y in b;
          var j :| 0 <= j < |b| && b[j] == y;
          if j == 0 {
            assert false;
          }
          assert b[1..][j - 1] == y;
        }
        if y in b[1..] {
          var j :| 0 <= j < |b[1..]| && b[1..][j] == y;
          assert lt(b[0], b[j + 1]);
          assert y in a;
          var i :| 0 <= i < |a| && a[i] == y;
          if i == 0 {
            assert false;
          }
          assert a[1..][i - 1] == y;
        }
      }
      StrictlySortedUnique(a[1..], b[1..], lt);
      assert a == [a[0]] + a[1..] && b == [b[0]] + b[1..];
    }
  }
}

=== FILE: text.dfy ===
/** The JavaScript string operations the scripts rely on: `toLowerCase`,
    `includes`, `startsWith`, `trim`, `String(n)` for integers, and the
    default code-unit ordering used by `Array.prototype.sort()`.
 */
module Text {

  // ---------------------------------------------------------------------
  // Case folding
  // ---------------------------------------------------------------------

  /** Upper-case letters of Basic Latin and Latin-1 (U+00C0..U+00DE without
      the multiplication sign U+00D7). */
  predicate IsUpper(c: char) {
    ('A' <= c <= 'Z') || ('À' <= c <= 'Þ' && c != '×')
  }

  /** Lower-case of one character: each upper-case letter above maps 32
      code points up; every other character is left alone. */
  function LowerChar(c: char): (r: char)
    ensures IsUpper(c) ==> r as int == c as int + 32
    ensures !IsUpper(c) ==> r == c
    ensures !IsUpper(r)
  {
    if IsUpper(c) then (c as int + 32) as char else c
  }

  /** `String.prototype.toLowerCase`, character by character. */
  function ToLower(s: string): (r: string)
    ensures |r| == |s|
    ensures forall i :: 0 <= i < |s| ==> r[i] == LowerChar(s[i])
    ensures forall i :: 0 <= i < |r| ==> !IsUpper(r[i])
  {
    seq(|s|, i requires 0 <= i < |s| => LowerChar(s[i]))
  }

  // ---------------------------------------------------------------------
  // Substring search
  // ---------------------------------------------------------------------

  /** `p` is a prefix of `s`. */
  predicate StartsWith(s: string, p: string) {
    |p| <= |s| && s[..|p|] == p
  }

  /** `t` occurs somewhere in `s`, found by trying every start position
      from the left. */
  predicate Includes(s: string, t: string)
    decreases |s|
  {
    StartsWith(s, t) || (|s| > 0 && Includes(s[1..], t))
  }

  /** `t` occurs in `s` starting at index `i`. */
  predicate OccursAt(t: string, s: string, i: int) {
    0 <= i <= |s| - |t| && s[i..i + |t|] == t
  }

  /** The reference meaning of `includes`: `t` occurs in `s` at some index. */
  ghost predicate OccursIn(t: string, s: string) {
    exists i :: OccursAt(t, s, i)
  }

  /** `Includes` finds exactly the occurrences the reference definition
      describes. */
  lemma {:induction false} IncludesIff(s: string, t: string)
    ensures Includes(s, t) <==> OccursIn(t, s)
    decreases |s|
  {
    if StartsWith(s, t) {
      assert OccursAt(t, s, 0);
    } else if |s| == 0 {
    } else {
      IncludesIff(s[1..], t);
      if OccursIn(t, s[1..]) {
        var i :| OccursAt(t, s[1..], i);
        OccursShift(s, t, i + 1);
      }
      if OccursIn(t, s) {
        var i :| OccursAt(t, s, i);
        if i > 0 {
          OccursShift(s, t, i);
        }
      }
    }
  }

  /** An occurrence at index `i > 0` of `s` is one at `i - 1` of its tail. */
  lemma OccursShift(s: string, t: string, i: int)
    requires 0 < i <= |s|
    ensures OccursAt(t, s, i) <==> OccursAt(t, s[1..], i - 1)
  {
    if i <= |s| - |t| {
      assert s[1..][i - 1..i - 1 + |t|] == s[i..i + |t|];
    }
  }

  /** Every string includes the empty string. */
  lemma IncludesEmpty(s: string)
    ensures Includes(s, "")
  {
    assert s[..0] == "";
  }

  // ---------------------------------------------------------------------
  // Trimming
  // ---------------------------------------------------------------------

  /** The characters `String.prototype.trim` strips: ECMAScript WhiteSpace
      (tab, vertical tab, form feed, space, no-break space, byte order mark
      and the Unicode space separators) and LineTerminator. */
  predicate IsJsSpace(c: char) {
    c in {'\U{0009}', '\U{000A}', '\U{000B}', '\U{000C}', '\U{000D}', '\U{0020}',
          '\U{00A0}', '\U{1680}', '\U{2000}', '\U{2001}', '\U{2002}', '\U{2003}',
          '\U{2004}', '\U{2005}', '\U{2006}', '\U{2007}', '\U{2008}', '\U{2009}',
          '\U{200A}', '\U{2028}', '\U{2029}', '\U{202F}', '\U{205F}', '\U{3000}',
          '\U{FEFF}'}
  }

  /** Drops the leading white space: the result is the suffix of `s` that
      starts at its first non-space character. */
  function TrimStart(s: string): (r: string)
    ensures |r| <= |s| && r == s[|s| - |r|..]
    ensures forall k :: 0 <= k < |s| - |r| ==> IsJsSpace(s[k])
    ensures r == [] || !IsJsSpace(r[0])
  {
    if |s| > 0 && IsJsSpace(s[0]) then TrimStart(s[1..]) else s
  }

  /** Drops the trailing white space: the result is the prefix of `s` that
      ends at its last non-space character. */
  function TrimEnd(s: string): (r: string)
    ensures |r| <= |s| && r == s[..|r|]
    ensures forall k :: |r| <= k < |s| ==> IsJsSpace(s[k])
    ensures r == [] || !IsJsSpace(r[|r| - 1])
  {
    if |s| > 0 && IsJsSpace(s[|s| - 1]) then TrimEnd(s[..|s| - 1]) else s
  }

  /** `String.prototype.trim`. */
  function Trim(s: string): string {
    TrimEnd(TrimStart(s))
  }

  /** `s[i..j]` is what is left of `s` once the white space before `i` and
      from `j` on is removed. */
  predicate TrimmedAt(s: string, i: int, j: int) {
    && 0 <= i <= j <= |s|
    && (forall k :: 0 <= k < i ==> IsJsSpace(s[k]))
    && (forall k :: j <= k < |s| ==> IsJsSpace(s[k]))
  }

  /** The trimmed string is the infix of `s` between a run of leading and a
      run of trailing white space, and it neither starts nor ends with
      white space. */
  lemma {:induction false} TrimSpec(s: string)
    ensures exists i, j :: TrimmedAt(s, i, j) && Trim(s) == s[i..j]
    ensures Trim(s) == [] || (!IsJsSpace(Trim(s)[0]) && !IsJsSpace(Trim(s)[|Trim(s)| - 1]))
  {
    var i, j := TrimWindow(s);
    TrimEdges(s);
  }

  /** The bounds of the trimmed infix. */
  lemma TrimWindow(s: string) returns (i: int, j: int)
    ensures TrimmedAt(s, i, j) && Trim(s) == s[i..j]
  {
    var t := TrimStart(s);
    i := |s| - |t|;
    var r := TrimEnd(t);
    j := i + |r|;
    assert Trim(s) == r == s[i..j];
    assert forall k :: j <= k < |s| ==> s[k] == t[k - i];
  }

  /** The trimmed string neither starts nor ends with white space. */
  lemma TrimEdges(s: string)
    ensures Trim(s) == [] || (!IsJsSpace(Trim(s)[0]) && !IsJsSpace(Trim(s)[|Trim(s)| - 1]))
  {
    var t := TrimStart(s);
    var r := TrimEnd(t);
    if r != [] {
      assert r[0] == t[0];
    }
  }

  /** A string made only of white space trims to the empty string. */
  lemma TrimAllSpace(s: string)
    requires forall k :: 0 <= k < |s| ==> IsJsSpace(s[k])
    ensures Trim(s) == ""
  {
  }

  // ---------------------------------------------------------------------
  // Integers as decimal text
  // ---------------------------------------------------------------------

  predicate IsDigit(c: char) {
    '0' <= c <= '9'
  }

  function DigitChar(d: nat): (c: char)
    requires d < 10
    ensures IsDigit(c) && c as int - '0' as int == d
  {
    ('0' as int + d) as char
  }

  /** The decimal digits of a natural number, without leading zeros. */
  function NatToString(n: nat): (r: string)
    ensures |r| >= 1
    ensures forall k :: 0 <= k < |r| ==> IsDigit(r[k])
    ensures r[0] == '0' ==> n == 0
    decreases n
  {
    if n < 10 then [DigitChar(n)] else NatToString(n / 10) + [DigitChar(n % 10)]
  }

  /** `String(n)` for an integer `n`: a minus sign before negatives. */
  function IntToString(n: int): (r: string)
    ensures |r| >= 1
    ensures n >= 0 <==> IsDigit(r[0])
    ensures n < 0 <==> r[0] == '-'
  {
    if n < 0 then "-" + NatToString(-n) else NatToString(n)
  }

  function DigitValue(c: char): nat
    requires IsDigit(c)
  {
    c as int - '0' as int
  }

  /** Reads a run of decimal digits back as a natural number. */
  function DigitsValue(s: string): nat
    requires forall k :: 0 <= k < |s| ==> IsDigit(s[k])
  {
    if |s| == 0 then 0
    else 10 * DigitsValue(s[..|s| - 1]) + DigitValue(s[|s| - 1])
  }

  /** Decimal text round-trips: the digits of `n` read back as `n`. */
  lemma {:induction false} NatToStringRoundTrip(n: nat)
    ensures DigitsValue(NatToString(n)) == n
    decreases n
  {
    if n >= 10 {
      NatToStringRoundTrip(n / 10);
      var r := NatToString(n);
      assert r[..|r| - 1] == NatToString(n / 10);
    }
  }

  /** `String(n)` is injective on integers, so comparing two integers by
      their decimal text is comparing the integers. */
  lemma IntToStringInjective(a: int, b: int)
    ensures IntToString(a) == IntToString(b) <==> a == b
  {
    if IntToString(a) == IntToString(b) {
      if a < 0 {
        assert b < 0;
        var sa, sb := NatToString(-a), NatToString(-b);
        assert IntToString(a)[1..] == sa;
        assert IntToString(b)[1..] == sb;
        NatToStringRoundTrip(-a);
        NatToStringRoundTrip(-b);
      } else {
        NatToStringRoundTrip(a);
        NatToStringRoundTrip(b);
      }
    }
  }

  // ---------------------------------------------------------------------
  // Default sort order of strings
  // ---------------------------------------------------------------------

  /** The order `Array.prototype.sort()` uses without a comparator:
      lexicographic by character code, a proper prefix before its
      extensions. */
  predicate StrLt(a: string, b: string) {
    if |a| == 0 then |b| > 0
    else if |b| == 0 then false
    else a[0] < b[0] || (a[0] == b[0] && StrLt(a[1..], b[1..]))
  }

  lemma {:induction false} StrLtIrreflexive(a: string)
    ensures !StrLt(a, a)
  {
    if |a| > 0 {
      StrLtIrreflexive(a[1..]);
    }
  }

  lemma {:induction false} StrLtTransitive(a: string, b: string, c: string)
    requires StrLt(a, b) && StrLt(b, c)
    ensures StrLt(a, c)
  {
    if |a| > 0 && a[0] == b[0] && b[0] == c[0] {
      StrLtTransitive(a[1..], b[1..], c[1..]);
    }
  }

  lemma {:induction false} StrLtTotal(a: string, b: string)
    requires a != b
    ensures StrLt(a, b) || StrLt(b, a)
  {
    if |a| > 0 && |b| > 0 && a[0] == b[0] {
      assert a == [a[0]] + a[1..] && b == [b[0]] + b[1..];
      StrLtTotal(a[1..], b[1..]);
    }
  }
}

=== FILE: values.dfy ===
/** JavaScript value conventions shared by the frontend scripts and the
    Express handlers: optional properties and the truthiness of JSON scalars.
 */
module JsValues {

  /** A property that may be missing (`undefined` or `null` in the scripts). */
  datatype Option<+T> = None | Some(value: T) {

    /** The value when present, otherwise the default (`x ?? d`). */
    function GetOr(default: T): T {
      match this
      case Some(v) => v
      case None => default
    }
  }

  /** A scalar read out of a JSON request body. `Absent` is a property the
      client did not send; arrays and objects are modelled separately. */
  datatype Field = Absent | Null | Str(s: string) | Num(n: int) | Bool(b: bool)

  /** JavaScript `ToBoolean` on a JSON scalar: `undefined`, `null`, `""`, `0`
      and `false` are falsy, everything else is truthy. */
  predicate Truthy(f: Field) {
    match f
    case Absent => false
    case Null => false
    case Str(s) => s != ""
    case Num(n) => n != 0
    case Bool(b) => b
  }

  /** The expression `f || d`: `f` itself when it is truthy, else `d`. */
  function Or(f: Field, d: Field): Field {
    if Truthy(f) then f else d
  }

  /** `Or` never yields a falsy value when its default is truthy, and it
      keeps a truthy value untouched. */
  lemma OrDefault(f: Field, d: Field)
    requires Truthy(d)
    ensures Truthy(Or(f, d))
    ensures Truthy(f) <==> Or(f, d) == f
  {
  }

  /** Applying the same default twice is applying it once, and the result
      is either truthy or the default itself. */
  lemma OrStable(f: Field, d: Field)
    ensures Or(Or(f, d), d) == Or(f, d)
    ensures Or(f, d) == d || Truthy(Or(f, d))
  {
  }
}

=== FILE: vehicle.dfy ===
/** The vehicle record as the frontend scripts read it from
    `GET /api/vehicles`, and the card-image fallback shared by the catalog
    and the home page.
 */
module Vehicles {
  import opened JsValues

  /** Status literal the frontend treats as "in stock". */
  const Available: string := "disponivel"
  /** Status literal the dashboard counts as sold. */
  const Sold: string := "vendido"
  /** Image shown when a vehicle has neither a usable photo nor an image. */
  const NoImage: string := "img/no-image.png"

  /** One vehicle. The listing reads every column of the row, so a value
      is never missing, only `null`, which is `None`; `status` is the raw
      text (a `null` status is modelled as `""`, which matches no status
      literal). Columns the modelled logic never reads (power, colour,
      description, rating, timestamps) are omitted. */
  datatype Vehicle = Vehicle(
    id: int,
    brand: Option<string>,
    model: Option<string>,
    year: Option<int>,
    price: Option<int>,
    category: Option<string>,
    fuel: Option<string>,
    transmission: Option<string>,
    status: string,
    featured: bool,
    photos: Option<seq<string>>,
    image: Option<string>)

  /** The vehicle is in stock: its status is exactly `Available`. */
  predicate IsAvailable(v: Vehicle) {
    v.status == Available
  }

  /** The vehicle has a photo list whose first entry is non-empty. */
  predicate HasFirstPhoto(v: Vehicle) {
    v.photos.Some? && |v.photos.value| > 0 && v.photos.value[0] != ""
  }

  /** The vehicle has a non-empty image address. */
  predicate HasImage(v: Vehicle) {
    v.image.Some? && v.image.value != ""
  }

  /** The number a vehicle's price counts as wherever the scripts compute
      with it: a relational comparison, a subtraction and `Number(price || 0)`
      all read a `null` price as 0. */
  function PriceOrZero(v: Vehicle): (n: int)
    ensures v.price.Some? ==> n == v.price.value
    ensures v.price.None? ==> n == 0
  {
    v.price.GetOr(0)
  }

  /** The card picture, falling back from the first photo to the image to
      the placeholder: never empty, the first photo when it is usable, the image when only it
      is, and the placeholder when neither is. */
  function CardImage(v: Vehicle): (r: string)
    ensures r != ""
    ensures HasFirstPhoto(v) ==> r == v.photos.value[0]
    ensures !HasFirstPhoto(v) && HasImage(v) ==> r == v.image.value
    ensures !HasFirstPhoto(v) && !HasImage(v) ==> r == NoImage
    ensures r == NoImage || (v.photos.Some? && r in v.photos.value) || v.image == Some(r)
  {
    if HasFirstPhoto(v) then v.photos.value[0]
    else if HasImage(v) then v.image.value
    else NoImage
  }
}

=== FILE: vehicle_api.dfy ===
/** The vehicle endpoints of the two backends: backend/server.js (the
    deployed Express app) and backend/routes.js (an older router with looser
    checks). The datastore table is a sequence of rows; an insert, and an
    update or delete restricted to the rows with a given id, become
    sequence operations on it.
 */
module VehicleApi {
  import opened JsValues
  import opened Text
  import opened Seqs

  /** Status stored when the request gives none. */
  const DefaultStatus: string := "Disponível"

  const MissingFields: string := "Campos obrigatórios faltando ou nenhuma foto enviada"
  const NeedPhoto: string := "É necessário enviar pelo menos uma foto."
  const NoPhotos: string := "Nenhuma foto enviada."
  const OnlyImages: string := "Apenas imagens são permitidas."
  const DeletedMessage: string := "Veículo excluído com sucesso"

  /** The JSON body of a create or update request. `photos` is `None` when
      it is missing or `null`. */
  datatype Body = Body(
    brand: Field, model: Field, year: Field, price: Field,
    power: Field, category: Field, fuel: Field, transmission: Field,
    color: Field, description: Field,
    status: Field, featured: Field,
    photos: Option<seq<Field>>)

  /** The stored columns of one vehicle. The insert and the update send
      their object as JSON, which drops a property whose value is
      `undefined`, so a stored `Absent` stands for the column's default in
      the datastore, not for a value the row holds. */
  datatype Columns = Columns(
    brand: Field, model: Field, year: Field, price: Field,
    power: Field, category: Field, fuel: Field, transmission: Field,
    color: Field, description: Field,
    status: Field, featured: Field,
    image: Field, photos: Option<seq<Field>>)

  datatype Row = Row(id: int, cols: Columns)

  /** Reply of a handler: a 400 with its error text, or a success. */
  datatype Reply =
    | BadRequest(error: string)
    | Created
    | Updated
    | Deleted(message: string)
    | Uploaded(urls: seq<string>)

  /** A column written from the request's value `given` through `given ||
      fallback`: the given value when it is truthy, the fallback otherwise. */
  predicate StoredOr(given: Field, stored: Field, fallback: Field) {
    && (Truthy(given) ==> stored == given)
    && (!Truthy(given) ==> stored == fallback)
  }

  /** Every column after the four main fields is the body's value when
      truthy and otherwise its fallback: `null` for power, category, fuel,
      transmission, color and description, the default status, and
      `false` for featured. */
  predicate OptionalColumnsFrom(b: Body, c: Columns) {
    && StoredOr(b.power, c.power, Null)
    && StoredOr(b.category, c.category, Null)
    && StoredOr(b.fuel, c.fuel, Null)
    && StoredOr(b.transmission, c.transmission, Null)
    && StoredOr(b.color, c.color, Null)
    && StoredOr(b.description, c.description, Null)
    && StoredOr(b.status, c.status, Str(DefaultStatus))
    && StoredOr(b.featured, c.featured, Bool(false))
  }

  /** The columns both POST handlers and the PUT handler write: the four
      main fields as given, every other optional field when truthy and
      `null` otherwise, and the status and featured defaults. */
  function Normalise(b: Body, image: Field, photos: Option<seq<Field>>): (c: Columns)
    ensures c.brand == b.brand && c.model == b.model && c.year == b.year && c.price == b.price
    ensures OptionalColumnsFrom(b, c)
    ensures c.image == image && c.photos == photos
  {
    Columns(
      b.brand, b.model, b.year, b.price,
      Or(b.power, Null), Or(b.category, Null), Or(b.fuel, Null), Or(b.transmission, Null),
      Or(b.color, Null), Or(b.description, Null),
      Or(b.status, Str(DefaultStatus)), Or(b.featured, Bool(false)),
      image, photos)
  }

  /** Stored optional columns are never "falsy but present": each is either
      `null` or a truthy value; status is always truthy and featured is
      truthy or `false`. */
  predicate NormalForm(c: Columns) {
    && (c.power == Null || Truthy(c.power))
    && (c.category == Null || Truthy(c.category))
    && (c.fuel == Null || Truthy(c.fuel))
    && (c.transmission == Null || Truthy(c.transmission))
    && (c.color == Null || Truthy(c.color))
    && (c.description == Null || Truthy(c.description))
    && Truthy(c.status)
    && (c.featured == Bool(false) || Truthy(c.featured))
  }

  /** The request body that resends stored columns unchanged. */
  function BodyOf(c: Columns): Body {
    Body(c.brand, c.model, c.year, c.price, c.power, c.category, c.fuel, c.transmission,
         c.color, c.description, c.status, c.featured, c.photos)
  }

  /** Normalisation lands in normal form, keeps every truthy value, and is
      idempotent: resending a stored row stores the same columns. */
  lemma {:induction false} NormaliseSpec(b: Body, image: Field, photos: Option<seq<Field>>)
    ensures NormalForm(Normalise(b, image, photos))
    ensures Truthy(b.power) ==> Normalise(b, image, photos).power == b.power
    ensures Truthy(b.category) ==> Normalise(b, image, photos).category == b.category
    ensures Truthy(b.fuel) ==> Normalise(b, image, photos).fuel == b.fuel
    ensures Truthy(b.transmission) ==> Normalise(b, image, photos).transmission == b.transmission
    ensures Truthy(b.color) ==> Normalise(b, image, photos).color == b.color
    ensures Truthy(b.description) ==> Normalise(b, image, photos).description == b.description
    ensures Truthy(b.featured) ==> Normalise(b, image, photos).featured == b.featured
    ensures Truthy(b.status) ==> Normalise(b, image, photos).status == b.status
    ensures !Truthy(b.status) ==> Normalise(b, image, photos).status == Str(DefaultStatus)
    ensures !Truthy(b.featured) ==> Normalise(b, image, photos).featured == Bool(false)
    ensures Normalise(BodyOf(Normalise(b, image, photos)), image, photos) == Normalise(b, image, photos)
  {
    OrStable(b.power, Null);
    OrStable(b.category, Null);
    OrStable(b.fuel, Null);
    OrStable(b.transmission, Null);
    OrStable(b.color, Null);
    OrStable(b.description, Null);
    OrStable(b.status, Str(DefaultStatus));
    OrStable(b.featured, Bool(false));
  }

  /** The body carries a non-empty photo list. */
  predicate HasPhotos(b: Body) {
    b.photos.Some? && |b.photos.value| > 0
  }

  /** The required-field check of backend/server.js. */
  predicate ServerAccepts(b: Body) {
    Truthy(b.brand) && Truthy(b.model) && Truthy(b.year) && Truthy(b.price) && HasPhotos(b)
  }

  /** The row a POST inserts: the first photo is the cover image and the
      full photo list is stored. */
  function NewRow(b: Body, newId: int): (r: Row)
    requires HasPhotos(b)
    ensures r.id == newId && r.cols.image == b.photos.value[0] && r.cols.photos == b.photos
    ensures r.cols.brand == b.brand && r.cols.model == b.model && r.cols.year == b.year && r.cols.price == b.price
    ensures OptionalColumnsFrom(b, r.cols)
    ensures NormalForm(r.cols)
  {
    NormaliseSpec(b, b.photos.value[0], b.photos);
    Row(newId, Normalise(b, b.photos.value[0], b.photos))
  }

  /** POST /api/vehicles of backend/server.js; `newId` is the id the
      datastore assigns. A request missing brand, model, year, price or
      photos is refused with 400 and the table is untouched; otherwise
      exactly one row is appended and the existing rows stay as they were. */
  function ServerPost(table: seq<Row>, b: Body, newId: int): (r: (Reply, seq<Row>))
    ensures r.0.BadRequest? <==> !ServerAccepts(b)
    ensures !ServerAccepts(b) ==> r.0 == BadRequest(MissingFields) && r.1 == table
    ensures ServerAccepts(b) ==> |r.1| == |table| + 1 && r.1[..|table|] == table
    ensures ServerAccepts(b) ==> r.1[|table|] == NewRow(b, newId)
  {
    if !ServerAccepts(b) then (BadRequest(MissingFields), table)
    else (Created, table + [NewRow(b, newId)])
  }

  /** POST /vehicles of backend/routes.js: only the photo list is checked. */
  function RoutesPost(table: seq<Row>, b: Body, newId: int): (r: (Reply, seq<Row>))
    ensures r.0.BadRequest? <==> !HasPhotos(b)
    ensures !HasPhotos(b) ==> r.0 == BadRequest(NeedPhoto) && r.1 == table
    ensures HasPhotos(b) ==> |r.1| == |table| + 1 && r.1[..|table|] == table
    ensures HasPhotos(b) ==> r.1[|table|] == NewRow(b, newId)
  {
    if !HasPhotos(b) then (BadRequest(NeedPhoto), table)
    else (Created, table + [NewRow(b, newId)])
  }

  /** The router accepts everything the server accepts and stores the same
      row; the converse fails: without a brand the router still inserts. */
  lemma RoutesLooser(table: seq<Row>, b: Body, newId: int)
    ensures ServerAccepts(b) ==> RoutesPost(table, b, newId) == ServerPost(table, b, newId)
    ensures HasPhotos(b) && !Truthy(b.brand) ==>
      ServerPost(table, b, newId).0.BadRequest? && RoutesPost(table, b, newId).0 == Created
  {
  }

  /** The cover image a PUT stores: the first photo when the list has a
      truthy one, and `null` otherwise. */
  function PutImage(photos: Option<seq<Field>>): (f: Field)
    ensures f == Null || (photos.Some? && |photos.value| > 0 && f == photos.value[0] && Truthy(f))
    ensures photos.Some? && |photos.value| > 0 && Truthy(photos.value[0]) ==> f == photos.value[0]
    ensures photos.None? ==> f == Null
  {
    if photos.Some? && |photos.value| > 0 then Or(photos.value[0], Null) else Null
  }

  /** One of the four main columns under an update. The update object is
      sent as JSON, which drops a property whose value is `undefined`, so a
      field the body leaves out is not written and the column keeps its
      value; any other value, `null` included, is written. */
  function Keep(given: Field, prev: Field): (f: Field)
    ensures given.Absent? ==> f == prev
    ensures !given.Absent? ==> f == given
  {
    if given.Absent? then prev else given
  }

  /** The columns a PUT leaves in a row whose columns were `prev`. Brand,
      model, year and price are written only when the body has them; every
      other column is always written, with the body's value when it is
      truthy and otherwise `null`, the default status or `false`; an absent
      photo list stores `null` photos and a `null` image. */
  function PutColumns(prev: Columns, b: Body): (c: Columns)
    ensures NormalForm(c)
    ensures b.brand.Absent? ==> c.brand == prev.brand
    ensures b.model.Absent? ==> c.model == prev.model
    ensures b.year.Absent? ==> c.year == prev.year
    ensures b.price.Absent? ==> c.price == prev.price
    ensures !b.brand.Absent? ==> c.brand == b.brand
    ensures !b.model.Absent? ==> c.model == b.model
    ensures !b.year.Absent? ==> c.year == b.year
    ensures !b.price.Absent? ==> c.price == b.price
    ensures OptionalColumnsFrom(b, c)
    ensures c.photos == b.photos && c.image == PutImage(b.photos)
    ensures b.photos.None? ==> c.photos.None? && c.image == Null
    ensures !Truthy(b.status) ==> c.status == Str(DefaultStatus)
    ensures !Truthy(b.featured) ==> c.featured == Bool(false)
  {
    NormaliseSpec(b, PutImage(b.photos), b.photos);
    Normalise(b, PutImage(b.photos), b.photos).(
      brand := Keep(b.brand, prev.brand), model := Keep(b.model, prev.model),
      year := Keep(b.year, prev.year), price := Keep(b.price, prev.price))
  }

  /** Only the four main columns can survive an update: with them set
      aside, what a PUT stores does not depend on the prev row. */
  lemma PutOnlyKeepsMain(prev1: Columns, prev2: Columns, b: Body)
    ensures PutColumns(prev1, b).(brand := Null, model := Null, year := Null, price := Null)
      == PutColumns(prev2, b).(brand := Null, model := Null, year := Null, price := Null)
    ensures FullBody(b) ==> PutColumns(prev1, b) == PutColumns(prev2, b)
  {
  }

  /** A body that gives all four main fields. */
  predicate FullBody(b: Body) {
    !b.brand.Absent? && !b.model.Absent? && !b.year.Absent? && !b.price.Absent?
  }

  /** PUT /api/vehicles/:id of backend/server.js: every row with the path id
      is updated with the request's columns, and every other row is left
      alone. There is no not-found branch: an unknown id changes nothing
      and still succeeds. */
  function ServerPut(table: seq<Row>, id: int, b: Body): (r: (Reply, seq<Row>))
    ensures r.0 == Updated
    ensures |r.1| == |table|
    ensures forall i :: 0 <= i < |table| && table[i].id != id ==> r.1[i] == table[i]
    ensures forall i :: 0 <= i < |table| && table[i].id == id ==> r.1[i] == Row(id, PutColumns(table[i].cols, b))
  {
    (Updated, seq(|table|, i requires 0 <= i < |table| =>
      if table[i].id == id then Row(id, PutColumns(table[i].cols, b)) else table[i]))
  }

  /** The body `second` with each main field it leaves out taken from
      `first`. */
  function Overlay(first: Body, second: Body): (b: Body)
    ensures FullBody(first) ==> FullBody(b)
    ensures FullBody(second) ==> b == second
    ensures b.photos == second.photos && b.status == second.status && b.featured == second.featured
  {
    second.(brand := Keep(second.brand, first.brand), model := Keep(second.model, first.model),
            year := Keep(second.year, first.year), price := Keep(second.price, first.price))
  }

  /** Two updates of the same id are one update with the overlaid body: the
      later body wins wherever it has a value, and the earlier body shows
      through only in the main fields the later one leaves out. */
  lemma {:induction false} PutTwice(table: seq<Row>, id: int, b1: Body, b2: Body)
    ensures ServerPut(ServerPut(table, id, b1).1, id, b2).1 == ServerPut(table, id, Overlay(b1, b2)).1
  {
    var once := ServerPut(table, id, b1).1;
    var twice := ServerPut(once, id, b2).1;
    var merged := ServerPut(table, id, Overlay(b1, b2)).1;
    forall i | 0 <= i < |table|
      ensures twice[i] == merged[i]
    {
      if table[i].id == id {
        assert PutColumns(PutColumns(table[i].cols, b1), b2) == PutColumns(table[i].cols, Overlay(b1, b2));
      }
    }
  }

  /** The last update wins outright when it gives all four main fields: a
      second such PUT erases every trace of the first. */
  lemma {:induction false} PutLastWins(table: seq<Row>, id: int, b1: Body, b2: Body)
    requires FullBody(b2)
    ensures ServerPut(ServerPut(table, id, b1).1, id, b2).1 == ServerPut(table, id, b2).1
  {
    PutTwice(table, id, b1, b2);
  }

  /** An update of an id no row has leaves the table as it was. */
  lemma PutAbsent(table: seq<Row>, id: int, b: Body)
    requires forall i :: 0 <= i < |table| ==> table[i].id != id
    ensures ServerPut(table, id, b).1 == table
  {
  }

  function IdIsNot(id: int): Row -> bool {
    (r: Row) => r.id != id
  }

  /** DELETE /api/vehicles/:id: the rows with the path id go, the others
      stay in order, and the success message is sent either way. */
  function ServerDelete(table: seq<Row>, id: int): (r: (Reply, seq<Row>))
    ensures r.0 == Deleted(DeletedMessage)
    ensures forall i :: 0 <= i < |r.1| ==> r.1[i].id != id
  {
    (Deleted(DeletedMessage), Filter(table, IdIsNot(id)))
  }

  /** Deleting keeps exactly the rows with another id, once deleted an id
      stays deleted, and deleting an id no row has changes nothing. */
  lemma {:induction false} DeleteSpec(table: seq<Row>, id: int, row: Row)
    ensures row in ServerDelete(table, id).1 <==> row in table && row.id != id
    ensures IsSubseq(ServerDelete(table, id).1, table)
    ensures ServerDelete(ServerDelete(table, id).1, id).1 == ServerDelete(table, id).1
    ensures (forall i :: 0 <= i < |table| ==> table[i].id != id) ==> ServerDelete(table, id).1 == table
  {
    FilterMultiset(table, IdIsNot(id), row);
    FilterIsSubseq(table, IdIsNot(id));
    FilterIdempotent(table, IdIsNot(id));
    if forall i :: 0 <= i < |table| ==> table[i].id != id {
      FilterAll(table, IdIsNot(id));
    }
  }

  // ---------------------------------------------------------------------
  // Photo upload
  // ---------------------------------------------------------------------

  /** One uploaded file: its original name and declared MIME type. */
  datatype Upload = Upload(name: string, mimetype: string)

  predicate IsImage(f: Upload) {
    StartsWith(f.mimetype, "image/")
  }

  /** POST /api/vehicles/upload of backend/server.js. `publicUrl` stands for
      the storage upload and public address of one file. An empty upload is
      refused; otherwise the files are stored one by one and the first one
      that is not an image stops the request with 400, the files before it
      having been stored already. */
  method ServerUpload(files: seq<Upload>, publicUrl: Upload -> string) returns (reply: Reply, stored: seq<Upload>)
    ensures |files| == 0 ==> reply == BadRequest(NoPhotos) && stored == []
    ensures reply.Uploaded? <==> |files| > 0 && forall i :: 0 <= i < |files| ==> IsImage(files[i])
    ensures reply.Uploaded? ==>
      stored == files && reply.urls == seq(|files|, i requires 0 <= i < |files| => publicUrl(files[i]))
    ensures |files| > 0 && !reply.Uploaded? ==>
      && reply == BadRequest(OnlyImages)
      && |stored| < |files| && stored == files[..|stored|]
      && !IsImage(files[|stored|])
      && forall i :: 0 <= i < |stored| ==> IsImage(files[i])
  {
    if |files| == 0 {
      return BadRequest(NoPhotos), [];
    }
    var urls: seq<string> := [];
    stored := [];
    var k := 0;
    while k < |files|
      invariant 0 <= k <= |files|
      invariant stored == files[..k]
      invariant forall i :: 0 <= i < k ==> IsImage(files[i])
      invariant urls == seq(k, i requires 0 <= i < k => publicUrl(files[i]))
    {
      if !IsImage(files[k]) {
        return BadRequest(OnlyImages), stored;
      }
      stored := stored + [files[k]];
      urls := urls + [publicUrl(files[k])];
      k := k + 1;
    }
    assert stored == files;
    return Uploaded(urls), stored;
  }

  /** POST /upload of backend/routes.js: no MIME check, every file is
      stored. */
  function RoutesUpload(files: seq<Upload>, publicUrl: Upload -> string): (r: Reply)
    ensures |files| == 0 <==> r == BadRequest(NoPhotos)
    ensures |files| > 0 ==>
      r.Uploaded? && |r.urls| == |files| && forall i :: 0 <= i < |files| ==> r.urls[i] == publicUrl(files[i])
  {
    if |files| == 0 then BadRequest(NoPhotos)
    else Uploaded(seq(|files|, i requires 0 <= i < |files| => publicUrl(files[i])))
  }

  /** The router stores every upload the server stores, with the same
      addresses, and also non-image files the server refuses. */
  method UploadsAgree(files: seq<Upload>, publicUrl: Upload -> string) returns (server: Reply, routes: Reply)
    ensures server.Uploaded? ==> routes == server
    ensures |files| > 0 ==> routes.Uploaded?
    ensures server.BadRequest? <==> (|files| == 0 || exists i :: 0 <= i < |files| && !IsImage(files[i]))
  {
    var stored;
    server, stored := ServerUpload(files, publicUrl);
    routes := RoutesUpload(files, publicUrl);
  }
}
